=== FILE: README.md ===
# OrderFlow front-end core, modelled in Dafny

OrderFlow is an Angular single-page application over a REST collection of
purchase orders (`/api/orderdetails`). This project models its core:

- the **order list** screen: summary statistics, the filter → sort →
  paginate pipeline, column sorting and its icons, paging, the payment badge,
  the two-phase delete and the create/update patches applied after a save;
- the **order form** dialog: the two date-format conversions, the declared
  validators and the message precedence of `getError`, edit/create
  detection and the payload it emits;
- the **order service**: the five request shapes, the single retry of the
  list read, and the mapping of every HTTP failure onto one message;
- the **toast service**: the id counter, `show` and its four wrappers.

Each component field becomes a field of an immutable record and each
handler a pure function from record to record. Asynchronous completions are
modelled by feeding the handler the outcome of its request: a transport is a
function `nat -> HttpOutcome<T>` giving what attempt k gets back, and
`OrderService.Execute` turns it into the `Result` the subscriber sees.
JavaScript built-ins the core relies on are written out in module `Text`
(`toLowerCase`, `trim`, `includes`, `String(number)`, string `<`) and
in module `Pagination` (`slice` with its index clamping).

Modules: `Wrappers` (Option, Result), `Text`, `OrderModel` (the order
record and payment modes), `Toasts`, `OrderService`, `OrderStatistics`,
`Filtering`, `Sorting`, `Pagination`, `OrderForm`, `OrderList`.

Behaviour of the code that the model keeps, as written:

- The search matches `String(o.id)`, so an order without an id is found by
  searching for "undefined" (`OrderModel.IdString`).
- Editing an order whose time has non-zero seconds saves it with ":00"
  seconds (`OrderForm.SecondsAreDropped`).
- The validators run on the untrimmed shop id, so a shop id of blanks passes
  and is submitted as the empty string (`OrderForm.BlankShopIdSubmittedEmpty`).
- An order id of 0 is falsy: the form opens in create mode and the delete
  confirmation does nothing.
- `refresh` shows its "Refreshing orders..." toast before the reload's own
  toast, because the reload completes asynchronously.

## Model

| member | source | states |
|---|---|---|
| OrderModel.PaymentModesDistinct | orderflow-angular/src/app/models/order-details.model.ts:19-21 | the four payment modes are all listed, once each, and stay distinct after lower-casing |
| OrderModel.IdString | orderflow-angular/src/app/components/order-list/order-list.component.ts:97 | `String(id)` is "undefined" for a missing id and otherwise the canonical decimal text (a leading "-" for negatives, no padding), which parses back to the id |
| Text.Lower | orderflow-angular/src/app/components/order-list/order-list.component.ts:93 | lower-casing keeps the length and maps each character on its own |
| Text.Trim | orderflow-angular/src/app/components/order-list/order-list.component.ts:93 | trim removes exactly the leading and trailing white space and leaves no white space at either end; it is empty iff the input is all white space |
| Text.Includes | orderflow-angular/src/app/components/order-list/order-list.component.ts:101 | `includes` holds iff the needle occurs at some position |
| Text.IntToStringRoundTrip | orderflow-angular/src/app/components/order-list/order-list.component.ts:97-98 | `String(n)` of an integer parses back to n |
| Text.LexLessTransitive | orderflow-angular/src/app/components/order-list/order-list.component.ts:131 | string `<` is transitive |
| Toasts.Show | orderflow-angular/src/app/services/toast.service.ts:15-17 | show increments the counter, appends one toast with the new counter as id and the given message, of kind info when none is given |
| Toasts.ShowSuccess | orderflow-angular/src/app/services/toast.service.ts:19 | exactly one toast is appended and it is a success toast with the next id |
| Toasts.ShowError | orderflow-angular/src/app/services/toast.service.ts:20 | exactly one toast is appended and it is an error toast with the next id |
| Toasts.ShowInfo | orderflow-angular/src/app/services/toast.service.ts:21 | exactly one toast is appended and it is an info toast with the next id |
| Toasts.ShowWarning | orderflow-angular/src/app/services/toast.service.ts:22 | exactly one toast is appended and it is a warning toast with the next id |
| Toasts.ShowKeepsValid | orderflow-angular/src/app/services/toast.service.ts:12-17 | the counter always equals the number of toasts shown and the i-th toast has id i+1 |
| Toasts.IdsStrictlyIncrease | orderflow-angular/src/app/services/toast.service.ts:12-17 | toast ids strictly increase in emission order, so no two toasts share an id |
| Toasts.ShowAllAppends | orderflow-angular/src/app/services/toast.service.ts:15-22 | a run of calls appends one toast per call, in call order, numbered on from the counter |
| Toasts.ShowAllKeepsValid | orderflow-angular/src/app/services/toast.service.ts:15-22 | any run of calls keeps ids consecutive |
| OrderService.ErrorMessage | orderflow-angular/src/app/services/order-details.service.ts:47-58 | status 0, 404 and 400 get their fixed messages, any other status "Server error <status>: <message>", and never the unknown-error default |
| OrderService.HandleError | orderflow-angular/src/app/services/order-details.service.ts:47-59 | every failure becomes an error carrying the normalised message; no failure recovers a value |
| OrderService.MessageDeterminesClass | orderflow-angular/src/app/services/order-details.service.ts:49-57 | two failures with the same message are in the same class, and a server-error message fixes the status and the transport message |
| OrderService.ItemUrlRoundTrip | orderflow-angular/src/app/services/order-details.service.ts:25 | the item URL of an id addresses exactly that id |
| OrderService.GetAllRequest | orderflow-angular/src/app/services/order-details.service.ts:17-21 | a GET without body on the collection, no id addressed, with two attempts |
| OrderService.GetByIdRequest | orderflow-angular/src/app/services/order-details.service.ts:23-27 | a GET without body on the item URL that addresses exactly the id, one attempt |
| OrderService.CreateRequest | orderflow-angular/src/app/services/order-details.service.ts:29-33 | a POST carrying the order to the collection, no id addressed, one attempt |
| OrderService.UpdateRequest | orderflow-angular/src/app/services/order-details.service.ts:35-39 | a PUT carrying the order to the item URL that addresses exactly the id, one attempt |
| OrderService.DeleteRequest | orderflow-angular/src/app/services/order-details.service.ts:41-45 | a DELETE without body on the item URL that addresses exactly the id, one attempt |
| OrderService.RequestShapes | orderflow-angular/src/app/services/order-details.service.ts:17-45 | list and create address the collection, get-one/update/delete the given id; verbs and bodies per operation; only the list read has two attempts |
| OrderService.Retry | orderflow-angular/src/app/services/order-details.service.ts:17-21 | attempts stop at the first response or when the budget is spent; the result is that response's body or the last failure's message |
| OrderService.Execute | orderflow-angular/src/app/services/order-details.service.ts:17-45 | a request succeeds iff some allowed attempt responds, every earlier attempt having failed; a failure reports the last attempt's normalised message |
| OrderService.RetryPolicy | orderflow-angular/src/app/services/order-details.service.ts:17-45 | the list read survives one failed attempt; get-one, create, update and delete fail on their first failure |
| OrderStatistics.RevenueAppend | orderflow-angular/src/app/components/order-list/order-list.component.ts:82 | revenue is additive over concatenation |
| OrderStatistics.CustomerIds | orderflow-angular/src/app/components/order-list/order-list.component.ts:87 | the customer-id set holds exactly the ids occurring in the list and is no larger than the list |
| OrderStatistics.ComputeStats | orderflow-angular/src/app/components/order-list/order-list.component.ts:80-89 | count, revenue with a missing total as 0, average revenue/count and 0 for an empty list, number of distinct customers between 1 and count for a non-empty list |
| OrderStatistics.StatsAfterPrepend | orderflow-angular/src/app/components/order-list/order-list.component.ts:80-89 | putting an order first adds one to the count and its total to the revenue, and adds a customer iff its id was new |
| OrderStatistics.StatsExample | orderflow-angular/src/app/components/order-list/order-list.component.ts:80-89 | two orders of 100 and 50 by one customer give count 2, revenue 150, average 75, one customer |
| Filtering.Select | orderflow-angular/src/app/components/order-list/order-list.component.ts:95-104 | the filter keeps every matching order as often as it occurs and nothing else |
| Filtering.SelectAppend | orderflow-angular/src/app/components/order-list/order-list.component.ts:95-104 | filtering a concatenation concatenates the filtered parts, so the filter keeps the relative order of the orders |
| Filtering.SelectSingle | orderflow-angular/src/app/components/order-list/order-list.component.ts:95-104 | a single order is kept exactly when it matches |
| Filtering.FiltersConjunctive | orderflow-angular/src/app/components/order-list/order-list.component.ts:96-103 | search and payment filter are conjunctive: each alone keeps at least what both keep |
| Filtering.BlankFiltersKeepAll | orderflow-angular/src/app/components/order-list/order-list.component.ts:93-103 | a blank search with no payment filter keeps the whole list |
| Filtering.QueryIgnoresCase | orderflow-angular/src/app/components/order-list/order-list.component.ts:93-101 | the search ignores the case of the query |
| Filtering.PaymentFilterSelectsMode | orderflow-angular/src/app/components/order-list/order-list.component.ts:94-102 | choosing a payment mode keeps exactly the orders with that mode in any letter case |
| Sorting.Compare | orderflow-angular/src/app/components/order-list/order-list.component.ts:127-134 | the comparator is negative iff the first key is below (ascending) or above (descending) the second, zero iff neither is below the other |
| Sorting.CompareAntisymmetric | orderflow-angular/src/app/components/order-list/order-list.component.ts:127-134 | swapping the arguments negates the comparator |
| Sorting.DirectionsOpposite | orderflow-angular/src/app/components/order-list/order-list.component.ts:131-132 | descending is the exact opposite of ascending |
| Sorting.InsertKeepsSorted | orderflow-angular/src/app/components/order-list/order-list.component.ts:127 | inserting into an ordered list keeps it ordered |
| Sorting.SortData | orderflow-angular/src/app/components/order-list/order-list.component.ts:126-135 | sortData returns a permutation of its input with no neighbour pair out of order |
| Sorting.SortDataIdempotent | orderflow-angular/src/app/components/order-list/order-list.component.ts:126-135 | sorting an already sorted list by the same field and direction changes nothing |
| Sorting.CompareTransitive | orderflow-angular/src/app/components/order-list/order-list.component.ts:127-134 | with every key present, "goes no later than" is transitive |
| Sorting.SortedPairwise | orderflow-angular/src/app/components/order-list/order-list.component.ts:126-135 | with every key present, every earlier row goes no later than every later row |
| Pagination.PageCount | orderflow-angular/src/app/components/order-list/order-list.component.ts:144 | the page count is at least 1, 1 for an empty list, and the ceiling of length/size otherwise |
| Pagination.PageCountUnique | orderflow-angular/src/app/components/order-list/order-list.component.ts:144 | for a non-empty list no other page count holds every row without an empty page |
| Pagination.ResolveIndex | orderflow-angular/src/app/components/order-list/order-list.component.ts:147 | slice indices are clamped to the list, counting negative ones from the end |
| Pagination.Slice | orderflow-angular/src/app/components/order-list/order-list.component.ts:147 | slice holds the elements from the resolved start up to the resolved end, and is empty when the end does not exceed the start |
| Pagination.Page | orderflow-angular/src/app/components/order-list/order-list.component.ts:146-147 | page p is the stretch from (p-1)*size to p*size cut at the end of the list, never longer than size |
| Pagination.AllPagesReproduceList | orderflow-angular/src/app/components/order-list/order-list.component.ts:143-147 | laying all pages end to end gives back the whole list |
| Pagination.PaginationStart | orderflow-angular/src/app/components/order-list/order-list.component.ts:160 | a real page starts at row 1 or later, and a full page from that row ends exactly at row `page * size` |
| Pagination.PaginationEnd | orderflow-angular/src/app/components/order-list/order-list.component.ts:161 | the last shown row is the smaller of the page's end and the list length |
| Pagination.PaginationRangeMatchesPage | orderflow-angular/src/app/components/order-list/order-list.component.ts:160-161 | the "start to end" range lies inside the list and is exactly as long as the page |
| Pagination.PaginationFollowsEarlierPages | orderflow-angular/src/app/components/order-list/order-list.component.ts:160-161 | the rows before the first shown row are exactly the rows of all earlier pages, and the last shown row counts the rows up to and including this page |
| OrderForm.ToInputFormat | orderflow-angular/src/app/components/order-form/order-form.component.ts:53-55 | the input value is the first 16 characters, or the whole string when shorter |
| OrderForm.ToApiFormat | orderflow-angular/src/app/components/order-form/order-form.component.ts:58-60 | a 16-character value gets ":00" appended; any other value passes unchanged |
| OrderForm.MinuteRoundTrip | orderflow-angular/src/app/components/order-form/order-form.component.ts:52-60 | expanding a minute-precision value and cutting it back returns it |
| OrderForm.SecondRoundTrip | orderflow-angular/src/app/components/order-form/order-form.component.ts:52-60 | a backend value with zero seconds survives cutting and expanding |
| OrderForm.SecondsAreDropped | orderflow-angular/src/app/components/order-form/order-form.component.ts:52-60 | a backend value with non-zero seconds comes back with ":00" seconds |
| OrderForm.ToInputFormatIdempotent | orderflow-angular/src/app/components/order-form/order-form.component.ts:53-55 | cutting twice is cutting once |
| OrderForm.Describe | orderflow-angular/src/app/components/order-form/order-form.component.ts:67-74 | no message iff no error; otherwise required beats min beats minlength beats the generic message, and the min message quotes the bound |
| OrderForm.GetError | orderflow-angular/src/app/components/order-form/order-form.component.ts:67-74 | no message iff the control has no error; date, payment mode and shop id can only be required (the minlength message never shows); the numeric controls never show "Too short" or "Invalid value" |
| OrderForm.ValidIffNoMessages | orderflow-angular/src/app/components/order-form/order-form.component.ts:67-74 | the form is valid iff no control shows a message |
| OrderForm.NumericMessages | orderflow-angular/src/app/components/order-form/order-form.component.ts:33-40 | an empty number is required, a total below 0 and a customer id below 1 name their bound |
| OrderForm.Init | orderflow-angular/src/app/components/order-form/order-form.component.ts:26-50 | edit mode iff the order has a truthy id; controls start from the order, date cut to minutes, or empty |
| OrderForm.Submit | orderflow-angular/src/app/components/order-form/order-form.component.ts:76-93 | an invalid form emits nothing and is marked touched; a valid one emits the values with the id only in edit mode, the date expanded and the shop id trimmed |
| OrderForm.PayloadIdFollowsOpening | orderflow-angular/src/app/components/order-form/order-form.component.ts:83-84 | the payload carries the opened order's id exactly when that id is truthy |
| OrderForm.UnchangedEditRoundTrip | orderflow-angular/src/app/components/order-form/order-form.component.ts:26-93 | opening a well-formed order and saving unchanged emits that same order |
| OrderForm.BlankShopIdSubmittedEmpty | orderflow-angular/src/app/components/order-form/order-form.component.ts:76-93 | a shop id of blanks passes validation and is submitted empty |
| OrderList.Initial | orderflow-angular/src/app/components/order-list/order-list.component.ts:21-46 | the initial fields: loading on, no orders, empty lists and stats, sorted by id ascending, blank query and payment filter, page 1 of 1, no form or confirmation open and no order being edited or deleted; they satisfy the list invariant |
| OrderList.UpdateStats | orderflow-angular/src/app/components/order-list/order-list.component.ts:80-89 | only the statistics change and they describe the whole list |
| OrderList.UpdatePagination | orderflow-angular/src/app/components/order-list/order-list.component.ts:143-148 | page count recomputed, current page pulled back to the last page when beyond it, the current page cut out, nothing else changes |
| OrderList.ApplyFilters | orderflow-angular/src/app/components/order-list/order-list.component.ts:92-108 | the filtered list is a sorted permutation of exactly the matching orders and the view returns to page 1 |
| OrderList.Search | orderflow-angular/src/app/components/order-list/order-list.component.ts:110 | the new query is kept and the view returns to page 1, listing exactly the orders the query and the current payment filter keep, sorted by the unchanged sort field and direction; only the query and the pipeline fields change |
| OrderList.FilterByPayment | orderflow-angular/src/app/components/order-list/order-list.component.ts:111 | the new payment filter is kept and the view returns to page 1, listing exactly the orders the current query and that filter keep, sorted by the unchanged sort; only the filter and the pipeline fields change |
| OrderList.ClearSearch | orderflow-angular/src/app/components/order-list/order-list.component.ts:112 | clearing the search empties the query, keeps the payment filter and returns to page 1, listing exactly the orders that filter keeps (every order when it is blank), sorted by the unchanged sort; only the query and the pipeline fields change |
| OrderList.SearchNarrowsResults | orderflow-angular/src/app/components/order-list/order-list.component.ts:110-111 | a search plus a payment filter shows no more than either alone |
| OrderList.SortBy | orderflow-angular/src/app/components/order-list/order-list.component.ts:115-124 | the active column flips direction, a new column starts ascending, the same rows are re-sorted and the page is kept; only the sort and the pipeline fields change |
| OrderList.SortIcon | orderflow-angular/src/app/components/order-list/order-list.component.ts:137-140 | ↕ exactly for a column other than the sort column, ↑ exactly for it ascending, ↓ exactly for it descending |
| OrderList.SortByThenIcon | orderflow-angular/src/app/components/order-list/order-list.component.ts:137-140 | after a click the clicked column shows the new direction's arrow and every other column ↕ |
| OrderList.SortByTwiceRestoresDirection | orderflow-angular/src/app/components/order-list/order-list.component.ts:115-124 | clicking the active column twice restores its direction |
| OrderList.GoPage | orderflow-angular/src/app/components/order-list/order-list.component.ts:143-154 | an out-of-range page is ignored; any other becomes current and its rows are shown, and only the page fields change |
| OrderList.PageNumbers | orderflow-angular/src/app/components/order-list/order-list.component.ts:156-158 | the page buttons are exactly 1..totalPages, ascending |
| OrderList.PaginationRangeIsCurrentPage | orderflow-angular/src/app/components/order-list/order-list.component.ts:160-161 | in a consistent state the "showing start to end" range names exactly the current page's rows |
| OrderList.RemoveById | orderflow-angular/src/app/components/order-list/order-list.component.ts:185 | exactly the orders with the given id are removed, the rest kept with their multiplicity |
| OrderList.RemoveByIdAppend | orderflow-angular/src/app/components/order-list/order-list.component.ts:185 | removal distributes over concatenation, so the surviving orders keep their relative order as `filter` keeps it |
| OrderList.RemoveByIdSingle | orderflow-angular/src/app/components/order-list/order-list.component.ts:185 | a single order survives exactly when its id differs from the removed id |
| OrderList.FindIndex | orderflow-angular/src/app/components/order-list/order-list.component.ts:207 | findIndex gives the first position with the id, or -1 iff there is none |
| OrderList.ReplaceFirst | orderflow-angular/src/app/components/order-list/order-list.component.ts:207-208 | the first order with the updated id is replaced, every other position kept, and nothing changes without a match |
| OrderList.FinishLoad | orderflow-angular/src/app/components/order-list/order-list.component.ts:58-72 | a loaded list replaces the orders, recomputes the stats, and refilters, resorts and repaginates from page 1 with the current query, filter and sort, changing nothing else and keeping the invariant; a failure only shows the error; loading stops either way |
| OrderList.LoadSucceeded | orderflow-angular/src/app/components/order-list/order-list.component.ts:61-66 | the success callback: the new list, its stats, the kept orders of the current filters sorted by the current field and page 1 of them, with every other field kept and the invariant restored |
| OrderList.LoadOrders | orderflow-angular/src/app/components/order-list/order-list.component.ts:58-72 | the list is the first response of at most two attempts, after which exactly the success callback runs (new stats, refiltered, resorted, page 1, nothing else changed); after two failures only the second failure's message is shown; earlier toasts are kept; loading stops |
| OrderList.Refresh | orderflow-angular/src/app/components/order-list/order-list.component.ts:74-77 | refresh is a full loadOrders whose only extra effect is the "Refreshing orders..." info toast, shown before any toast of the reload |
| OrderList.LoadIgnoresToasts | orderflow-angular/src/app/components/order-list/order-list.component.ts:58-72 | a load does the same to every field except the toasts whatever toasts were shown before |
| OrderList.OpenCreate | orderflow-angular/src/app/components/order-list/order-list.component.ts:164-167 | the form opens with no order and nothing else changes |
| OrderList.OpenEdit | orderflow-angular/src/app/components/order-list/order-list.component.ts:170-173 | the form opens on the order and nothing else changes |
| OrderList.CloseForm | orderflow-angular/src/app/components/order-list/order-list.component.ts:231 | only the form closes |
| OrderList.OpenDelete | orderflow-angular/src/app/components/order-list/order-list.component.ts:176-179 | asking to delete only records the target and opens the confirmation; no order changes |
| OrderList.CancelDelete | orderflow-angular/src/app/components/order-list/order-list.component.ts:196-199 | cancelling closes the confirmation and forgets the target; nothing else changes |
| OrderList.Recompute | orderflow-angular/src/app/components/order-list/order-list.component.ts:189-190 | rerunning stats and filters gives the stats of the list and the orders the current query and filter keep, sorted by the current sort, on page 1; only stats and the pipeline fields change |
| OrderList.DeleteSucceeded | orderflow-angular/src/app/components/order-list/order-list.component.ts:184-191 | a confirmed delete removes exactly the target id's orders, closes the dialog, shows "Order #id deleted successfully" and refilters and resorts the remaining orders from page 1 under the unchanged query, filter and sort; the form is untouched |
| OrderList.ConfirmDelete | orderflow-angular/src/app/components/order-list/order-list.component.ts:181-194 | no target or a falsy id does nothing; success is a confirmed delete; failure adds only the error toast |
| OrderList.FormSave | orderflow-angular/src/app/components/order-list/order-list.component.ts:202-229 | a truthy id updates in place and a falsy one prepends the created order, each with its success toast, closing the form and refiltering and resorting from page 1 under the unchanged query, filter and sort, with nothing else changed; failure adds only the error toast |
| OrderList.ApplyFiltersRestoresValid | orderflow-angular/src/app/components/order-list/order-list.component.ts:92-108 | once the statistics are current, applying the filters restores the whole list invariant |
| OrderList.SearchKeepsValid | orderflow-angular/src/app/components/order-list/order-list.component.ts:110-112 | search, payment filter and clear keep the list invariant |
| OrderList.SortByKeepsValid | orderflow-angular/src/app/components/order-list/order-list.component.ts:115-124 | sorting keeps the list invariant |
| OrderList.GoPageKeepsValid | orderflow-angular/src/app/components/order-list/order-list.component.ts:150-154 | paging keeps the list invariant |
| OrderList.LoadKeepsValid | orderflow-angular/src/app/components/order-list/order-list.component.ts:58-77 | loading and refreshing keep the list invariant on success and failure |
| OrderList.LoadOrdersKeepsValid | orderflow-angular/src/app/components/order-list/order-list.component.ts:58-72 | loadOrders keeps the list invariant on success and failure |
| OrderList.DialogsKeepValid | orderflow-angular/src/app/components/order-list/order-list.component.ts:164-199 | opening and closing dialogs keeps the list invariant |
| OrderList.ConfirmDeleteKeepsValid | orderflow-angular/src/app/components/order-list/order-list.component.ts:181-194 | confirming a delete keeps the list invariant |
| OrderList.FormSaveKeepsValid | orderflow-angular/src/app/components/order-list/order-list.component.ts:202-229 | saving the form keeps the list invariant |
| OrderList.BadgeClass | orderflow-angular/src/app/components/order-list/order-list.component.ts:251-257 | the class is "badge " followed by one of the four mode badges or the default badge |
| OrderList.BadgeOfMode | orderflow-angular/src/app/components/order-list/order-list.component.ts:251-257 | a payment mode's lower-cased name finds the badge named after it |
| OrderList.BadgeOfOther | orderflow-angular/src/app/components/order-list/order-list.component.ts:251-257 | any other key gets the default badge |
| OrderList.BadgeClassFollowsMode | orderflow-angular/src/app/components/order-list/order-list.component.ts:251-257 | a payment mode in any letter case gets its own badge class, any other string the default |
| OrderList.FailureOnlyReportsError | orderflow-angular/src/app/components/order-list/order-list.component.ts:181-229 | a failed save or delete changes no order, statistic, row or page and adds one error toast with the normalised message |
| OrderList.TwoPhaseDeleteExample | orderflow-angular/src/app/components/order-list/order-list.component.ts:176-194 | asking to delete order 2 changes nothing; confirming a successful request leaves only order 1 |

## Left out

- HTTP, rxjs and Angular change detection: requests are modelled by their shape and a transport function; overlapping requests and the order in which their completions interleave are not modelled.
- Each handler is modelled as atomic with the completion of its request: no user event arrives while a request is pending.
- OrderList.ConfirmDelete: reads the delete target once, when the request is sent, while the component reads it again in its success callback. A cancel during a pending delete clears the target, so in the component that callback fails, the deleted order stays listed and no toast appears; the model does not cover this interleaving.
- Order fields: `None` stands for an absent (`undefined`) field only; a JSON `null`, which sorts as 0 and prints as "null", is not modelled. Ids, totals and customer ids are unbounded integers, not IEEE doubles, so precision loss above 2^53 and exponent notation from 1e21 are not modelled.
- The toast component's display timers and dismissal, the navbar, the routes and the app shell: they hold no logic of the core.
- `formatDate`, `formatCurrency` and `formatNumber`: locale-dependent formatting of the host platform.
- `trackById`, `isInvalid`, `onClose`, `onBackdropClick` and the `submitting` flag: view plumbing with no observable effect on the data.
- Floating point: totals are integers and the average is an exact rational; `parseFloat`/`parseInt` on the submitted numbers are taken to return the number already in the control.
- `getById` is modelled as a request shape only, since no screen of the core calls it.
- Text.Lower: lower-cases ASCII letters only; other Unicode case mappings of `toLowerCase` are not modelled.
- Text.LexLess: compares code points, where JavaScript compares UTF-16 code units; the two differ only for characters outside the Basic Multilingual Plane.
- OrderList.BadgeClass: the lookup object's inherited properties (a payment mode spelled "constructor" or "__proto__") are not modelled; such strings get the default badge here.
- Sorting.SortData: with an order lacking the sort key (no id or no total) the comparator answers 0 against everything and is not a consistent comparator, so the order `Array.prototype.sort` produces is left to the JavaScript engine; the model fixes one order, that of a stable insertion sort, in which no neighbouring pair is out of order. Only when every key is present is the result proved ordered throughout (`Sorting.SortedPairwise`), and stability is not proved.
- OrderList.SortBy: keeps the page only when it is in range before sorting; its contract says nothing about an out-of-range current page.
- OrderList.PageSize: fixed at 10, as in the component; a changed page size is not modelled.
- The template's `ngModel` writes of the search box and payment filter are folded into `OrderList.Search` and `OrderList.FilterByPayment`.

=== FILE: filtering.dfy ===
/** The first stage of the list pipeline: the free-text search ANDed with
    the payment-mode filter. */
module Filtering {
  import opened OrderModel
  import opened Text

  /** The search text as compared: lower-cased, then trimmed. */
  function NormalizeQuery(query: string): string {
    Trim(Lower(query))
  }

  /** The payment filter as compared: lower-cased, not trimmed. */
  function NormalizePayment(payment: string): string {
    Lower(payment)
  }

  /** The text match: an empty (normalised) query matches everything;
      otherwise the query must occur in the id, the customer id, the
      lower-cased shop or the lower-cased payment mode. */
  predicate MatchesQuery(q: string, o: Order) {
    || q == ""
    || Includes(IdString(o.id), q)
    || Includes(IntToString(o.customerId), q)
    || Includes(Lower(o.shopId), q)
    || Includes(Lower(o.paymentMode), q)
  }

  /** The payment match: an empty (normalised) filter matches everything;
      otherwise the lower-cased payment mode must equal it. */
  predicate MatchesPayment(pm: string, o: Order) {
    pm == "" || Lower(o.paymentMode) == pm
  }

  /** Whether `applyFilters` keeps `o` for the raw search text and
      payment filter. */
  predicate Keeps(query: string, payment: string, o: Order) {
    MatchesQuery(NormalizeQuery(query), o) && MatchesPayment(NormalizePayment(payment), o)
  }

  /** The `filter` call of `applyFilters`: every kept order as many times as
      it occurs in `orders`, in the original order, and nothing else. */
  function Select(orders: seq<Order>, query: string, payment: string): (r: seq<Order>)
    ensures forall o :: multiset(r)[o] == if Keeps(query, payment, o) then multiset(orders)[o] else 0
    ensures forall i :: 0 <= i < |r| ==> Keeps(query, payment, r[i])
    ensures |r| <= |orders|
  {
    if |orders| == 0 then []
    else
      assert orders == [orders[0]] + orders[1..];
      var rest := Select(orders[1..], query, payment);
      if Keeps(query, payment, orders[0]) then [orders[0]] + rest else rest
  }

  /** The filter keeps the relative order of the orders: filtering a
      concatenation filters each part and concatenates the results, so a
      kept order never moves ahead of one that preceded it. */
  lemma {:induction false} SelectAppend(a: seq<Order>, b: seq<Order>, query: string, payment: string)
    ensures Select(a + b, query, payment) == Select(a, query, payment) + Select(b, query, payment)
    decreases |a|
  {
    if |a| == 0 {
      assert a + b == b;
    } else {
      assert (a + b)[0] == a[0];
      assert (a + b)[1..] == a[1..] + b;
      SelectAppend(a[1..], b, query, payment);
    }
  }

  /** A single order is kept exactly when it matches. */
  lemma SelectSingle(o: Order, query: string, payment: string)
    ensures Select([o], query, payment) == if Keeps(query, payment, o) then [o] else []
  {
    assert [o][1..] == [];
  }

  /** The filters are conjunctive: adding a payment filter to a search, or
      a search to a payment filter, can only remove orders, and neither
      stage adds anything to the full list. */
  lemma FiltersConjunctive(orders: seq<Order>, query: string, payment: string)
    ensures multiset(Select(orders, query, payment)) <= multiset(Select(orders, query, ""))
    ensures multiset(Select(orders, query, payment)) <= multiset(Select(orders, "", payment))
    ensures multiset(Select(orders, query, "")) <= multiset(orders)
    ensures multiset(Select(orders, "", payment)) <= multiset(orders)
  {
    assert NormalizePayment("") == "";
    assert NormalizeQuery("") == "";
  }

  /** A search consisting only of white space (the empty search included)
      together with an empty payment filter keeps every order. */
  lemma {:induction false} BlankFiltersKeepAll(orders: seq<Order>, query: string)
    requires forall k :: 0 <= k < |query| ==> IsSpace(query[k])
    ensures Select(orders, query, "") == orders
    decreases |orders|
  {
    var lowered := Lower(query);
    assert forall k :: 0 <= k < |lowered| ==> IsSpace(lowered[k]);
    assert NormalizeQuery(query) == "";
    assert NormalizePayment("") == "";
    if |orders| > 0 {
      BlankFiltersKeepAll(orders[1..], query);
      assert orders == [orders[0]] + orders[1..];
    }
  }

  /** The search ignores letter case: upper-casing letters in the query
      does not change which orders are kept. */
  lemma QueryIgnoresCase(query: string, payment: string, o: Order)
    ensures Keeps(query, payment, o) == Keeps(Lower(query), payment, o)
  {
    LowerIdempotent(query);
  }

  /** Selecting one of the four payment modes keeps exactly the orders whose
      stored mode spells that mode in any letter case. */
  lemma PaymentFilterSelectsMode(m: PaymentMode, o: Order)
    ensures Keeps("", ModeName(m), o) <==> Lower(o.paymentMode) == Lower(ModeName(m))
  {
    assert NormalizeQuery("") == "";
    assert ModeName(m) != "";
  }
}

=== FILE: order_form.dfy ===
/** The create/edit dialog: the two date-format conversions, the field
    validators and their messages, and the payload the dialog emits. */
module OrderForm {
  import opened Wrappers
  import opened OrderModel
  import Text

  // -------------------------------------------------------------- dates

  /** Length of a minute-precision timestamp, `YYYY-MM-DDTHH:MM`. */
  const MinuteLength: nat := 16

  /** Seconds appended when expanding to the backend's format. */
  const ZeroSeconds: string := ":00"

  /** `toInputFormat`: the first 16 characters when there are that many,
      otherwise the whole string. */
  function ToInputFormat(dt: string): (r: string)
    ensures |r| == if |dt| >= MinuteLength then MinuteLength else |dt|
    ensures r == dt[..|r|]
  {
    if |dt| >= MinuteLength then dt[..MinuteLength] else dt
  }

  /** `toApiFormat`: a 16-character string gains ":00" and becomes 19 long;
      any other string is passed through. */
  function ToApiFormat(dt: string): (r: string)
    ensures |dt| <= |r| && r[..|dt|] == dt
    ensures |dt| == MinuteLength ==> |r| == MinuteLength + |ZeroSeconds| && r[MinuteLength..] == ZeroSeconds
    ensures |dt| != MinuteLength ==> r == dt
  {
    if |dt| == MinuteLength then dt + ZeroSeconds else dt
  }

  /** Expanding a minute-precision value and cutting it back returns it. */
  lemma MinuteRoundTrip(dt: string)
    requires |dt| == MinuteLength
    ensures ToInputFormat(ToApiFormat(dt)) == dt
  {
  }

  /** A backend value with zero seconds survives cutting and re-expanding. */
  lemma SecondRoundTrip(dt: string)
    requires |dt| == MinuteLength + |ZeroSeconds| && dt[MinuteLength..] == ZeroSeconds
    ensures ToApiFormat(ToInputFormat(dt)) == dt
  {
    assert dt == dt[..MinuteLength] + dt[MinuteLength..];
  }

  /** A backend value with non-zero seconds does not survive: the seconds
      become ":00". */
  lemma SecondsAreDropped(dt: string)
    requires |dt| == MinuteLength + |ZeroSeconds| && dt[MinuteLength..] != ZeroSeconds
    ensures ToApiFormat(ToInputFormat(dt)) != dt
    ensures ToApiFormat(ToInputFormat(dt)) == dt[..MinuteLength] + ZeroSeconds
  {
    var r := ToApiFormat(ToInputFormat(dt));
    assert r[MinuteLength..] == ZeroSeconds;
  }

  /** Cutting twice is cutting once. */
  lemma ToInputFormatIdempotent(dt: string)
    ensures ToInputFormat(ToInputFormat(dt)) == ToInputFormat(dt)
  {
  }

  // --------------------------------------------------------- validation

  datatype FormField = DateOfPurchaseField | TotalField | CustomerIdField | PaymentModeField | ShopIdField

  /** The values held by the form's controls. A numeric control that holds
      the empty string `''` is `None`. */
  datatype FormValues = FormValues(
    dateOfPurchase: string,
    total: Option<int>,
    customerId: Option<int>,
    paymentMode: string,
    shopId: string)

  /** The `errors` object of one control: whether `required` failed, the
      bound of a failed `min`, the required length of a failed `minlength`,
      and whether any other validator reported. */
  datatype Errors = Errors(required: bool, min: Option<int>, minLength: Option<nat>, other: bool)

  predicate NoErrors(e: Errors) {
    !e.required && e.min.None? && e.minLength.None? && !e.other
  }

  /** `Validators.min(bound)`: an empty control passes; a number below the
      bound fails. */
  function MinCheck(v: Option<int>, bound: int): Option<int> {
    if v.Some? && v.value < bound then Some(bound) else None
  }

  /** `Validators.minLength(k)`: an empty control passes; a shorter
      non-empty string fails. */
  function MinLengthCheck(s: string, k: nat): Option<nat> {
    if 0 < |s| < k then Some(k) else None
  }

  /** The validators the form declares, per control. */
  function ErrorsOf(v: FormValues, f: FormField): Errors {
    match f
    case DateOfPurchaseField => Errors(v.dateOfPurchase == "", None, None, false)
    case TotalField => Errors(v.total.None?, MinCheck(v.total, 0), None, false)
    case CustomerIdField => Errors(v.customerId.None?, MinCheck(v.customerId, 1), None, false)
    case PaymentModeField => Errors(v.paymentMode == "", None, None, false)
    case ShopIdField => Errors(v.shopId == "", None, MinLengthCheck(v.shopId, 1), false)
  }

  /** `form.valid`: no control reports an error. */
  predicate Valid(v: FormValues) {
    && NoErrors(ErrorsOf(v, DateOfPurchaseField))
    && NoErrors(ErrorsOf(v, TotalField))
    && NoErrors(ErrorsOf(v, CustomerIdField))
    && NoErrors(ErrorsOf(v, PaymentModeField))
    && NoErrors(ErrorsOf(v, ShopIdField))
  }

  const RequiredMessage: string := "This field is required"
  const TooShortMessage: string := "Too short"
  const InvalidMessage: string := "Invalid value"

  /** The message for one control's errors, by precedence: required, then
      min (quoting the bound), then minlength, then a generic message; the
      empty string when there is no error. */
  function Describe(e: Errors): (msg: string)
    ensures msg == "" <==> NoErrors(e)
    ensures e.required ==> msg == RequiredMessage
    ensures !e.required && e.min.Some? ==> msg == "Minimum value is " + Text.IntToString(e.min.value)
    ensures !e.required && e.min.None? && e.minLength.Some? ==> msg == TooShortMessage
    ensures !e.required && e.min.None? && e.minLength.None? && e.other ==> msg == InvalidMessage
  {
    if NoErrors(e) then ""
    else if e.required then RequiredMessage
    else if e.min.Some? then "Minimum value is " + Text.IntToString(e.min.value)
    else if e.minLength.Some? then TooShortMessage
    else InvalidMessage
  }

  /** `getError(field)`. */
  function GetError(v: FormValues, f: FormField): (r: string)
    ensures r == "" <==> NoErrors(ErrorsOf(v, f))
    ensures f in {DateOfPurchaseField, PaymentModeField, ShopIdField} ==> r in {"", RequiredMessage}
    ensures f in {TotalField, CustomerIdField} ==> r != TooShortMessage && r != InvalidMessage
  {
    Describe(ErrorsOf(v, f))
  }

  /** The form is valid exactly when no control shows a message. */
  lemma ValidIffNoMessages(v: FormValues)
    ensures Valid(v) <==> forall f: FormField :: GetError(v, f) == ""
  {
    if !Valid(v) {
      if !NoErrors(ErrorsOf(v, DateOfPurchaseField)) { assert GetError(v, DateOfPurchaseField) != ""; }
      else if !NoErrors(ErrorsOf(v, TotalField)) { assert GetError(v, TotalField) != ""; }
      else if !NoErrors(ErrorsOf(v, CustomerIdField)) { assert GetError(v, CustomerIdField) != ""; }
      else if !NoErrors(ErrorsOf(v, PaymentModeField)) { assert GetError(v, PaymentModeField) != ""; }
      else { assert GetError(v, ShopIdField) != ""; }
    }
  }

  /** The numeric controls' messages: an empty control is "required", a
      number below the bound names the bound. */
  lemma NumericMessages(v: FormValues)
    ensures v.total.None? ==> GetError(v, TotalField) == RequiredMessage
    ensures v.total.Some? && v.total.value < 0 ==> GetError(v, TotalField) == "Minimum value is 0"
    ensures v.customerId.Some? && v.customerId.value < 1 ==>
      GetError(v, CustomerIdField) == "Minimum value is 1"
  {
    assert Text.IntToString(0) == "0";
    assert Text.IntToString(1) == "1";
  }

  // ------------------------------------------------------------ the form

  /** The dialog's state: the order it was opened with (`null` for create),
      `isEdit`, the controls' values, and whether every control has been
      marked touched. */
  datatype Form = Form(order: Option<Order>, isEdit: bool, values: FormValues, touched: bool)

  /** `ngOnInit`: edit mode iff the order has a truthy id (so id 0 opens a
      create form); the controls start from the order's values, with the
      date cut to minute precision, or empty for a new order. */
  function Init(order: Option<Order>): (r: Form)
    ensures r.isEdit <==> order.Some? && Truthy(order.value.id)
    ensures !r.touched && r.order == order
    ensures order.None? ==> r.values == FormValues("", None, None, "", "")
    ensures order.Some? ==>
      && r.values.dateOfPurchase == ToInputFormat(order.value.dateOfPurchase)
      && r.values.total == order.value.total
      && r.values.customerId == Some(order.value.customerId)
      && r.values.paymentMode == order.value.paymentMode
      && r.values.shopId == order.value.shopId
  {
    match order
    case None => Form(order, false, FormValues("", None, None, "", ""), false)
    case Some(o) =>
      var date := if o.dateOfPurchase != "" then ToInputFormat(o.dateOfPurchase) else "";
      Form(order, Truthy(o.id), FormValues(date, o.total, Some(o.customerId), o.paymentMode, o.shopId), false)
  }

  /** `onSubmit`: an invalid form emits nothing and marks every control
      touched; a valid one emits the payload, which carries the original id
      only in edit mode, the date expanded to the backend format and the
      shop id trimmed. */
  function Submit(form: Form): (r: (Form, Option<Order>))
    ensures r.1.None? <==> !Valid(form.values)
    ensures r.1.None? ==> r.0 == form.(touched := true)
    ensures r.1.Some? ==> r.0 == form
    ensures r.1.Some? ==>
      var p := r.1.value;
      && (p.id.Some? <==> form.isEdit && form.order.Some? && Truthy(form.order.value.id))
      && (p.id.Some? ==> p.id == form.order.value.id)
      && p.dateOfPurchase == ToApiFormat(form.values.dateOfPurchase)
      && p.total == form.values.total && p.total.Some? && p.total.value >= 0
      && Some(p.customerId) == form.values.customerId && p.customerId >= 1
      && p.paymentMode == form.values.paymentMode
      && p.shopId == Text.Trim(form.values.shopId)
  {
    var v := form.values;
    if !Valid(v) then (form.(touched := true), None)
    else
      var id := if form.isEdit && form.order.Some? && Truthy(form.order.value.id) then form.order.value.id else None;
      (form, Some(Order(id, ToApiFormat(v.dateOfPurchase), v.total, v.customerId.value, v.paymentMode, Text.Trim(v.shopId))))
  }

  /** Whatever the user types, a form opened on an order submits that
      order's id exactly when the id is truthy; an id of 0 or no order at
      all gives a create payload without id. */
  lemma PayloadIdFollowsOpening(order: Option<Order>, typed: FormValues)
    requires Valid(typed)
    ensures var p := Submit(Init(order).(values := typed)).1;
      p.Some? && (p.value.id.Some? <==> order.Some? && Truthy(order.value.id))
    ensures var p := Submit(Init(order).(values := typed)).1;
      p.Some? && p.value.id.Some? ==> p.value.id == order.value.id
  {
  }

  /** Opening the dialog on a well-formed order and saving without changes
      sends back that very order: the date (zero seconds) and the shop id
      (already trimmed) survive the round trip. */
  lemma UnchangedEditRoundTrip(o: Order)
    requires Truthy(o.id)
    requires |o.dateOfPurchase| == MinuteLength + |ZeroSeconds| && o.dateOfPurchase[MinuteLength..] == ZeroSeconds
    requires o.total.Some? && o.total.value >= 0 && o.customerId >= 1 && o.paymentMode != ""
    requires o.shopId != "" && Text.Trim(o.shopId) == o.shopId
    ensures Submit(Init(Some(o))) == (Init(Some(o)), Some(o))
  {
    SecondRoundTrip(o.dateOfPurchase);
  }

  /** The validators run before trimming, so a shop id of blanks passes and
      is submitted as the empty string. */
  lemma BlankShopIdSubmittedEmpty(v: FormValues)
    requires Valid(v.(shopId := "x"))
    ensures var p := Submit(Form(None, false, v.(shopId := " "), false)).1;
      p.Some? && p.value.shopId == ""
  {
    assert Text.Trim(" ") == "" by {
      assert Text.IsSpace(" "[0]);
    }
  }
}

=== FILE: order_list.dfy ===
/** The order-list screen: the component's fields as one record and every
    handler as a transition from record to record. The backend call a
    handler makes is a parameter (`transport(k)` is what attempt k gets
    back), and the toast service the component was given is part of the
    record. */
module OrderList {
  import opened Wrappers
  import opened OrderModel
  import opened OrderStatistics
  import opened Filtering
  import opened Sorting
  import opened Pagination
  import Toasts
  import OrderService
  import Text

  /** `pageSize`: fixed for the component's lifetime. */
  const PageSize: nat := 10

  datatype ListState = ListState(
    apiUrl: string,
    allOrders: seq<Order>,
    filtered: seq<Order>,
    paginated: seq<Order>,
    stats: OrderStats,
    loading: bool,
    searchQuery: string,
    paymentFilter: string,
    sortField: Field,
    sortDir: Direction,
    currentPage: int,
    totalPages: int,
    showForm: bool,
    editOrder: Option<Order>,
    showConfirm: bool,
    deleteTarget: Option<Order>,
    toasts: Toasts.ToastService)

  /** The field initialisers: nothing loaded, sorted by id ascending,
      page 1 of 1, no dialog open. */
  function Initial(apiUrl: string, toasts: Toasts.ToastService): (r: ListState)
    ensures r.loading && r.allOrders == [] && r.stats == ComputeStats([])
    ensures r.filtered == [] && r.paginated == []
    ensures r.sortField == IdField && r.sortDir == Asc && r.searchQuery == "" && r.paymentFilter == ""
    ensures r.currentPage == 1 && r.totalPages == 1
    ensures !r.showForm && !r.showConfirm && r.editOrder == None && r.deleteTarget == None
    ensures r.apiUrl == apiUrl && r.toasts == toasts
    ensures Toasts.Valid(toasts) ==> Valid(r)
  {
    ListState(apiUrl, [], [], [], OrderStats(0, 0, 0.0, 0), true, "", "",
      IdField, Asc, 1, 1, false, None, false, None, toasts)
  }

  /** What every handler keeps true: the statistics describe the whole
      list; `filtered` is a sorted permutation of the orders the current
      filters keep; the page count and current page are consistent and
      `paginated` is the current page; the toast ids are consecutive. */
  ghost predicate Valid(st: ListState) {
    && st.stats == ComputeStats(st.allOrders)
    && multiset(st.filtered) == multiset(Select(st.allOrders, st.searchQuery, st.paymentFilter))
    && Sorted(st.filtered, st.sortField, st.sortDir)
    && st.totalPages == PageCount(|st.filtered|, PageSize)
    && 1 <= st.currentPage <= st.totalPages
    && st.paginated == Page(st.filtered, st.currentPage, PageSize)
    && Toasts.Valid(st.toasts)
  }

  // ---------------------------------------------------------- pipeline

  /** `updateStats`: only `stats` changes, and it now describes the whole
      list. */
  function UpdateStats(st: ListState): (r: ListState)
    ensures r.stats.total == |st.allOrders| && r.stats.revenue == Revenue(st.allOrders)
    ensures r.stats == ComputeStats(st.allOrders)
    ensures r.(stats := st.stats) == st
  {
    st.(stats := ComputeStats(st.allOrders))
  }

  /** `updatePagination`: recomputes the page count, pulls the current
      page back to the last page when it lies beyond it, and cuts out that
      page; nothing else changes. */
  function UpdatePagination(st: ListState): (r: ListState)
    ensures r.totalPages == PageCount(|st.filtered|, PageSize)
    ensures r.currentPage == if st.currentPage > r.totalPages then r.totalPages else st.currentPage
    ensures r.currentPage <= r.totalPages
    ensures r.paginated == Page(st.filtered, r.currentPage, PageSize)
    ensures |r.paginated| <= PageSize
    ensures r.(totalPages := st.totalPages, currentPage := st.currentPage, paginated := st.paginated) == st
  {
    var total := PageCount(|st.filtered|, PageSize);
    var page := if st.currentPage > total then total else st.currentPage;
    st.(totalPages := total, currentPage := page, paginated := Page(st.filtered, page, PageSize))
  }

  /** `applyFilters`: `filtered` becomes the kept orders, sorted by the
      current field and direction, and the view returns to page 1. */
  function ApplyFilters(st: ListState): (r: ListState)
    ensures multiset(r.filtered) == multiset(Select(st.allOrders, st.searchQuery, st.paymentFilter))
    ensures forall o :: o in r.filtered <==> o in st.allOrders && Keeps(st.searchQuery, st.paymentFilter, o)
    ensures Sorted(r.filtered, st.sortField, st.sortDir)
    ensures r.currentPage == 1
    ensures r.totalPages == PageCount(|r.filtered|, PageSize)
    ensures r.paginated == Page(r.filtered, 1, PageSize)
    ensures r.allOrders == st.allOrders && r.stats == st.stats && r.toasts == st.toasts
    ensures r.showForm == st.showForm && r.deleteTarget == st.deleteTarget && r.showConfirm == st.showConfirm
    ensures r.(filtered := st.filtered, paginated := st.paginated, currentPage := st.currentPage,
               totalPages := st.totalPages) == st
  {
    var kept := Select(st.allOrders, st.searchQuery, st.paymentFilter);
    var sorted := SortData(kept, st.sortField, st.sortDir);
    SelectMembers(st.allOrders, st.searchQuery, st.paymentFilter, sorted);
    UpdatePagination(st.(filtered := sorted, currentPage := 1))
  }

  /** Any rearrangement of the selection holds exactly the kept orders. */
  lemma SelectMembers(orders: seq<Order>, query: string, payment: string, s: seq<Order>)
    requires multiset(s) == multiset(Select(orders, query, payment))
    ensures forall o :: o in s <==> o in orders && Keeps(query, payment, o)
  {
    forall o
      ensures o in s <==> o in orders && Keeps(query, payment, o)
    {
      assert o in s <==> multiset(s)[o] > 0;
      assert o in orders <==> multiset(orders)[o] > 0;
    }
  }

  /** `onSearch` after the search box has written `query`. */
  function Search(st: ListState, query: string): (r: ListState)
    ensures r.searchQuery == query && r.paymentFilter == st.paymentFilter && r.currentPage == 1
    ensures forall o :: o in r.filtered <==> o in st.allOrders && Keeps(query, st.paymentFilter, o)
    ensures multiset(r.filtered) == multiset(Select(st.allOrders, query, st.paymentFilter))
    ensures r.sortField == st.sortField && r.sortDir == st.sortDir && Sorted(r.filtered, r.sortField, r.sortDir)
    ensures r.(searchQuery := st.searchQuery, filtered := st.filtered, paginated := st.paginated, currentPage := st.currentPage,
               totalPages := st.totalPages) == st
  {
    ApplyFilters(st.(searchQuery := query))
  }

  /** `onFilter` after the drop-down has written `payment`. */
  function FilterByPayment(st: ListState, payment: string): (r: ListState)
    ensures r.paymentFilter == payment && r.searchQuery == st.searchQuery && r.currentPage == 1
    ensures forall o :: o in r.filtered <==> o in st.allOrders && Keeps(st.searchQuery, payment, o)
    ensures multiset(r.filtered) == multiset(Select(st.allOrders, st.searchQuery, payment))
    ensures r.sortField == st.sortField && r.sortDir == st.sortDir && Sorted(r.filtered, r.sortField, r.sortDir)
    ensures r.(paymentFilter := st.paymentFilter, filtered := st.filtered, paginated := st.paginated, currentPage := st.currentPage,
               totalPages := st.totalPages) == st
  {
    ApplyFilters(st.(paymentFilter := payment))
  }

  /** `clearSearch`: with no payment filter either, every order is listed
      again. */
  function ClearSearch(st: ListState): (r: ListState)
    ensures r.searchQuery == "" && r.paymentFilter == st.paymentFilter && r.currentPage == 1
    ensures st.paymentFilter == "" ==> multiset(r.filtered) == multiset(st.allOrders)
    ensures forall o :: o in r.filtered <==> o in st.allOrders && Keeps("", st.paymentFilter, o)
    ensures multiset(r.filtered) == multiset(Select(st.allOrders, "", st.paymentFilter))
    ensures r.sortField == st.sortField && r.sortDir == st.sortDir && Sorted(r.filtered, r.sortField, r.sortDir)
    ensures r.(searchQuery := st.searchQuery, filtered := st.filtered, paginated := st.paginated, currentPage := st.currentPage,
               totalPages := st.totalPages) == st
  {
    BlankFiltersKeepAll(st.allOrders, "");
    ApplyFilters(st.(searchQuery := ""))
  }

  /** Orders visible under a search and a payment filter are visible under
      either one alone. */
  lemma SearchNarrowsResults(st: ListState, query: string, payment: string)
    ensures multiset(FilterByPayment(Search(st, query), payment).filtered)
         <= multiset(Search(st.(paymentFilter := ""), query).filtered)
    ensures multiset(FilterByPayment(Search(st, query), payment).filtered)
         <= multiset(FilterByPayment(st.(searchQuery := ""), payment).filtered)
  {
    FiltersConjunctive(st.allOrders, query, payment);
  }

  // --------------------------------------------------------------- sort

  /** `sortBy(field)`: the active field flips direction, a new field starts
      ascending; the list is re-sorted and re-paginated, but the page is not
      reset. */
  function SortBy(st: ListState, f: Field): (r: ListState)
    ensures r.sortField == f
    ensures st.sortField == f ==> r.sortDir != st.sortDir
    ensures st.sortField != f ==> r.sortDir == Asc
    ensures multiset(r.filtered) == multiset(st.filtered) && Sorted(r.filtered, f, r.sortDir)
    ensures 1 <= st.currentPage <= PageCount(|st.filtered|, PageSize) ==> r.currentPage == st.currentPage
    ensures r.paginated == Page(r.filtered, r.currentPage, PageSize)
    ensures r.allOrders == st.allOrders && r.stats == st.stats && r.toasts == st.toasts
    ensures r.searchQuery == st.searchQuery && r.paymentFilter == st.paymentFilter
    ensures r.(filtered := st.filtered, paginated := st.paginated, sortField := st.sortField,
               sortDir := st.sortDir, currentPage := st.currentPage, totalPages := st.totalPages) == st
  {
    var dir := if st.sortField == f then (if st.sortDir == Asc then Desc else Asc) else Asc;
    var s1 := st.(sortField := f, sortDir := dir);
    UpdatePagination(s1.(filtered := SortData(st.filtered, f, dir)))
  }

  /** `getSortIcon(field)`. */
  function SortIcon(st: ListState, f: Field): (r: string)
    ensures r == "\U{2195}" <==> st.sortField != f
    ensures r == "\U{2191}" <==> st.sortField == f && st.sortDir == Asc
    ensures r == "\U{2193}" <==> st.sortField == f && st.sortDir == Desc
  {
    if st.sortField != f then "\U{2195}"
    else if st.sortDir == Asc then "\U{2191}"
    else assert st.sortDir == Desc; "\U{2193}"
  }

  /** Clicking a column header shows ↑ on a newly chosen column, flips the
      arrow on the active one, and leaves ↕ on every other column. */
  lemma SortByThenIcon(st: ListState, f: Field, g: Field)
    ensures st.sortField != f ==> SortIcon(SortBy(st, f), f) == "\U{2191}"
    ensures st.sortField == f && st.sortDir == Asc ==> SortIcon(SortBy(st, f), f) == "\U{2193}"
    ensures st.sortField == f && st.sortDir == Desc ==> SortIcon(SortBy(st, f), f) == "\U{2191}"
    ensures g != f ==> SortIcon(SortBy(st, f), g) == "\U{2195}"
  {
  }

  /** Clicking the same header twice restores the field and direction, and
      the list is again sorted by them. */
  lemma SortByTwiceRestoresDirection(st: ListState, f: Field)
    requires st.sortField == f
    ensures SortBy(SortBy(st, f), f).sortField == st.sortField
    ensures SortBy(SortBy(st, f), f).sortDir == st.sortDir
    ensures Sorted(SortBy(SortBy(st, f), f).filtered, f, st.sortDir)
    ensures multiset(SortBy(SortBy(st, f), f).filtered) == multiset(st.filtered)
  {
  }

  // --------------------------------------------------------- pagination

  /** `goPage(p)`: a page outside `[1, totalPages]` is ignored; any other
      page becomes current and is cut out. */
  function GoPage(st: ListState, p: int): (r: ListState)
    ensures (p < 1 || p > st.totalPages) ==> r == st
    ensures 1 <= p <= st.totalPages && st.totalPages == PageCount(|st.filtered|, PageSize) ==>
      r.currentPage == p && r.paginated == Page(st.filtered, p, PageSize) && r.filtered == st.filtered
    ensures 1 <= p <= st.totalPages ==>
      r.(currentPage := st.currentPage, paginated := st.paginated, totalPages := st.totalPages) == st
    ensures 1 <= p <= st.totalPages && st.totalPages == PageCount(|st.filtered|, PageSize) ==>
      r.(currentPage := st.currentPage, paginated := st.paginated) == st
  {
    if p < 1 || p > st.totalPages then st
    else UpdatePagination(st.(currentPage := p))
  }

  /** `pageNumbers`: the buttons 1..totalPages, ascending. */
  function PageNumbers(st: ListState): (r: seq<int>)
    ensures forall p :: p in r <==> 1 <= p <= st.totalPages
    ensures forall i :: 0 <= i < |r| - 1 ==> r[i] < r[i + 1]
  {
    var n := if st.totalPages < 0 then 0 else st.totalPages;
    var r := seq(n, i requires 0 <= i < n => i + 1);
    forall p | 1 <= p <= st.totalPages
      ensures p in r
    {
      assert r[p - 1] == p;
    }
    r
  }

  /** With consistent page fields and rows to show, "showing start to end
      of n" names exactly the rows of the current page. */
  lemma PaginationRangeIsCurrentPage(st: ListState)
    requires st.totalPages == PageCount(|st.filtered|, PageSize) && 1 <= st.currentPage <= st.totalPages
    requires st.paginated == Page(st.filtered, st.currentPage, PageSize) && |st.filtered| > 0
    ensures 1 <= PaginationStart(st.currentPage, PageSize)
    ensures PaginationStart(st.currentPage, PageSize) <= PaginationEnd(st.currentPage, PageSize, |st.filtered|)
    ensures PaginationEnd(st.currentPage, PageSize, |st.filtered|) <= |st.filtered|
    ensures PaginationEnd(st.currentPage, PageSize, |st.filtered|) - PaginationStart(st.currentPage, PageSize) + 1
         == |st.paginated|
  {
    PaginationRangeMatchesPage(st.filtered, st.currentPage, PageSize);
  }

  // -------------------------------------------------------- list patches

  /** The orders whose id differs from `id`, in their original order. */
  function RemoveById(orders: seq<Order>, id: Option<int>): (r: seq<Order>)
    ensures forall o :: multiset(r)[o] == if o.id == id then 0 else multiset(orders)[o]
    ensures forall i :: 0 <= i < |r| ==> r[i].id != id
  {
    if |orders| == 0 then []
    else
      assert orders == [orders[0]] + orders[1..];
      var rest := RemoveById(orders[1..], id);
      if orders[0].id != id then [orders[0]] + rest else rest
  }

  /** Removal works piece by piece, so the survivors keep their relative
      order, as `filter` keeps it. */
  lemma {:induction false} RemoveByIdAppend(a: seq<Order>, b: seq<Order>, id: Option<int>)
    ensures RemoveById(a + b, id) == RemoveById(a, id) + RemoveById(b, id)
    decreases |a|
  {
    if |a| == 0 {
      assert a + b == b;
    } else {
      assert (a + b)[0] == a[0];
      assert (a + b)[1..] == a[1..] + b;
      RemoveByIdAppend(a[1..], b, id);
    }
  }

  /** A one-order list survives exactly when its id differs. */
  lemma RemoveByIdSingle(o: Order, id: Option<int>)
    ensures RemoveById([o], id) == if o.id != id then [o] else []
  {
    assert [o][1..] == [];
  }

  /** `findIndex(o => o.id === id)`: the first position holding that id,
      or -1. */
  function FindIndex(orders: seq<Order>, id: Option<int>): (k: int)
    ensures -1 <= k < |orders|
    ensures k == -1 <==> forall i :: 0 <= i < |orders| ==> orders[i].id != id
    ensures k >= 0 ==> orders[k].id == id && forall i :: 0 <= i < k ==> orders[i].id != id
  {
    if |orders| == 0 then -1
    else if orders[0].id == id then 0
    else
      var k := FindIndex(orders[1..], id);
      if k == -1 then -1 else k + 1
  }

  /** The update patch: the first order with the updated order's id is
      replaced by it and every other position is kept; without a match the
      list is unchanged. */
  function ReplaceFirst(orders: seq<Order>, updated: Order): (r: seq<Order>)
    ensures |r| == |orders|
    ensures FindIndex(orders, updated.id) == -1 ==> r == orders
    ensures forall i :: 0 <= i < |r| ==>
      r[i] == if i == FindIndex(orders, updated.id) then updated else orders[i]
  {
    var k := FindIndex(orders, updated.id);
    if k == -1 then orders else orders[k := updated]
  }

  // ------------------------------------------------------------- loading

  /** The subscribe-time half of `loadOrders`. */
  function BeginLoad(st: ListState): ListState {
    st.(loading := true)
  }

  /** The completion half of `loadOrders`: the list is replaced and the
      pipeline rerun, or the error is shown; either way loading stops. */
  function FinishLoad(st: ListState, res: Result<seq<Order>, string>): (r: ListState)
    ensures !r.loading
    ensures res.Ok? ==> r.allOrders == res.value && r.stats == ComputeStats(res.value) && r.currentPage == 1
    ensures res.Fail? ==> r == st.(loading := false, toasts := Toasts.ShowError(st.toasts, res.error))
    ensures res.Ok? ==> r.toasts == st.toasts
    ensures res.Ok? ==>
      && multiset(r.filtered) == multiset(Select(res.value, st.searchQuery, st.paymentFilter))
      && Sorted(r.filtered, st.sortField, st.sortDir)
      && r.totalPages == PageCount(|r.filtered|, PageSize)
      && r.paginated == Page(r.filtered, 1, PageSize)
    ensures res.Ok? ==> r.(allOrders := st.allOrders, stats := st.stats, filtered := st.filtered,
      paginated := st.paginated, currentPage := st.currentPage, totalPages := st.totalPages,
      loading := st.loading) == st
    ensures res.Ok? && Toasts.Valid(st.toasts) ==> Valid(r)
    ensures |r.toasts.emitted| >= |st.toasts.emitted| && r.toasts.emitted[..|st.toasts.emitted|] == st.toasts.emitted
  {
    match res
    case Ok(data) => LoadSucceeded(st, data)
    case Fail(msg) => st.(toasts := Toasts.ShowError(st.toasts, msg), loading := false)
  }

  /** The success half of `loadOrders`: the list becomes `data`, then
      `updateStats` and `applyFilters` run and loading stops. */
  function LoadSucceeded(st: ListState, data: seq<Order>): (r: ListState)
    ensures !r.loading && r.allOrders == data && r.stats == ComputeStats(data) && r.currentPage == 1
    ensures multiset(r.filtered) == multiset(Select(data, st.searchQuery, st.paymentFilter))
    ensures Sorted(r.filtered, st.sortField, st.sortDir)
    ensures r.totalPages == PageCount(|r.filtered|, PageSize) && r.paginated == Page(r.filtered, 1, PageSize)
    ensures r.(allOrders := st.allOrders, stats := st.stats, filtered := st.filtered,
      paginated := st.paginated, currentPage := st.currentPage, totalPages := st.totalPages,
      loading := st.loading) == st
    ensures Toasts.Valid(st.toasts) ==> Valid(r)
  {
    var updated := UpdateStats(st.(allOrders := data));
    var applied := ApplyFilters(updated);
    assert Toasts.Valid(st.toasts) ==> Valid(applied) by {
      if Toasts.Valid(st.toasts) { ApplyFiltersRestoresValid(updated); }
    }
    applied.(loading := false)
  }

  /** `loadOrders` with the list read's outcome supplied by `transport`. */
  function LoadOrders(st: ListState, transport: nat -> OrderService.HttpOutcome<seq<Order>>): (r: ListState)
    ensures !r.loading
    ensures transport(0).Response? ==>
      r.allOrders == transport(0).body && r.stats == ComputeStats(r.allOrders) && r.currentPage == 1
    ensures transport(0).Response? ==> r == LoadSucceeded(BeginLoad(st), transport(0).body)
    ensures transport(0).Failed? && transport(1).Response? ==> r == LoadSucceeded(BeginLoad(st), transport(1).body)
    ensures transport(0).Failed? && transport(1).Response? ==>
      r.allOrders == transport(1).body && r.stats == ComputeStats(r.allOrders) && r.currentPage == 1
    ensures transport(0).Failed? && transport(1).Failed? ==>
      r == st.(loading := false, toasts := Toasts.ShowError(st.toasts, OrderService.ErrorMessage(transport(1).error)))
    ensures |r.toasts.emitted| >= |st.toasts.emitted| && r.toasts.emitted[..|st.toasts.emitted|] == st.toasts.emitted
  {
    FinishLoad(BeginLoad(st), OrderService.Execute(OrderService.GetAllRequest(st.apiUrl), transport).0)
  }

  const RefreshingMessage: string := "Refreshing orders..."

  /** `refresh`: a full `loadOrders`, with the "refreshing" toast shown
      while the reload is in flight, so it precedes whatever toast the
      reload produces. */
  function Refresh(st: ListState, transport: nat -> OrderService.HttpOutcome<seq<Order>>): (r: ListState)
    ensures r == LoadOrders(st.(toasts := Toasts.ShowInfo(st.toasts, RefreshingMessage)), transport)
    ensures r.(toasts := st.toasts) == LoadOrders(st, transport).(toasts := st.toasts)
    ensures |r.toasts.emitted| > |st.toasts.emitted|
    ensures r.toasts.emitted[..|st.toasts.emitted| + 1] ==
      st.toasts.emitted + [Toasts.Toast(st.toasts.counter + 1, RefreshingMessage, Toasts.Info)]
    ensures r.toasts.emitted[|st.toasts.emitted|] ==
      Toasts.Toast(st.toasts.counter + 1, RefreshingMessage, Toasts.Info)
  {
    var announced := st.(toasts := Toasts.ShowInfo(st.toasts, RefreshingMessage));
    var r := LoadOrders(announced, transport);
    LoadIgnoresToasts(st, announced.toasts, transport);
    var n := |st.toasts.emitted|;
    assert r.toasts.emitted[..n + 1] == r.toasts.emitted[..|announced.toasts.emitted|];
    assert r.toasts.emitted[n] == r.toasts.emitted[..n + 1][n];
    r
  }

  /** Apart from the toasts it may add, a load does not depend on the
      toasts already shown. */
  lemma LoadIgnoresToasts(st: ListState, t: Toasts.ToastService, transport: nat -> OrderService.HttpOutcome<seq<Order>>)
    ensures LoadOrders(st.(toasts := t), transport).(toasts := st.toasts) == LoadOrders(st, transport).(toasts := st.toasts)
  {
    var res := OrderService.Execute(OrderService.GetAllRequest(st.apiUrl), transport).0;
    if res.Ok? {
      var a := FinishLoad(BeginLoad(st.(toasts := t)), res);
      var b := FinishLoad(BeginLoad(st), res);
      assert a.(toasts := st.toasts) == b;
    }
  }

  // ------------------------------------------------------------- dialogs

  /** `openCreate`. */
  function OpenCreate(st: ListState): (r: ListState)
    ensures r.showForm && r.editOrder == None
    ensures r.(showForm := st.showForm, editOrder := st.editOrder) == st
  {
    st.(editOrder := None, showForm := true)
  }

  /** `openEdit(order)`: the dialog gets a copy of the order. */
  function OpenEdit(st: ListState, o: Order): (r: ListState)
    ensures r.showForm && r.editOrder == Some(o)
    ensures r.(showForm := st.showForm, editOrder := st.editOrder) == st
  {
    st.(editOrder := Some(o), showForm := true)
  }

  /** `onFormClose`. */
  function CloseForm(st: ListState): (r: ListState)
    ensures !r.showForm && r.(showForm := st.showForm) == st
  {
    st.(showForm := false)
  }

  /** `openDelete(order)`: the first phase of a delete only remembers the
      target and opens the confirmation. */
  function OpenDelete(st: ListState, o: Order): (r: ListState)
    ensures r.deleteTarget == Some(o) && r.showConfirm
    ensures r.allOrders == st.allOrders && r.toasts == st.toasts
    ensures r.(deleteTarget := st.deleteTarget, showConfirm := st.showConfirm) == st
  {
    st.(deleteTarget := Some(o), showConfirm := true)
  }

  /** `onCancelDelete`: closes the confirmation and forgets the target; no
      request is made and no toast appears. */
  function CancelDelete(st: ListState): (r: ListState)
    ensures r.deleteTarget == None && !r.showConfirm
    ensures r.(deleteTarget := st.deleteTarget, showConfirm := st.showConfirm) == st
  {
    st.(showConfirm := false, deleteTarget := None)
  }

  /** Whether `onConfirmDelete` sends a request: a target with a truthy
      id. */
  predicate CanDelete(st: ListState) {
    st.deleteTarget.Some? && Truthy(st.deleteTarget.value.id)
  }

  /** The outcome of the delete request `onConfirmDelete` sends. */
  function DeleteResult(st: ListState, transport: nat -> OrderService.HttpOutcome<()>): Result<(), string>
    requires CanDelete(st)
  {
    OrderService.Execute(OrderService.DeleteRequest(st.apiUrl, st.deleteTarget.value.id.value), transport).0
  }

  /** The success toast of a delete. */
  function DeletedMessage(id: int): string {
    "Order #" + Text.IntToString(id) + " deleted successfully"
  }

  /** Reruns `updateStats` and `applyFilters` after a list patch; the
      patched list, the toasts and the dialogs are kept. */
  function Recompute(st: ListState): (r: ListState)
    ensures r.allOrders == st.allOrders && r.toasts == st.toasts
    ensures r.stats == ComputeStats(st.allOrders) && r.currentPage == 1
    ensures r.showForm == st.showForm && r.deleteTarget == st.deleteTarget && r.showConfirm == st.showConfirm
    ensures multiset(r.filtered) == multiset(Select(st.allOrders, st.searchQuery, st.paymentFilter))
    ensures Sorted(r.filtered, st.sortField, st.sortDir)
    ensures r.totalPages == PageCount(|r.filtered|, PageSize) && r.paginated == Page(r.filtered, 1, PageSize)
    ensures r.(stats := st.stats, filtered := st.filtered, paginated := st.paginated, currentPage := st.currentPage,
               totalPages := st.totalPages) == st
  {
    ApplyFilters(UpdateStats(st))
  }

  /** The success half of `onConfirmDelete` for order `id`. */
  function DeleteSucceeded(st: ListState, id: int): (r: ListState)
    ensures forall o :: multiset(r.allOrders)[o] == if o.id == Some(id) then 0 else multiset(st.allOrders)[o]
    ensures r.deleteTarget == None && !r.showConfirm
    ensures r.stats == ComputeStats(r.allOrders) && r.currentPage == 1
    ensures Toasts.Latest(r.toasts) == Some(Toasts.Toast(st.toasts.counter + 1, DeletedMessage(id), Toasts.Success))
    ensures r.toasts == Toasts.ShowSuccess(st.toasts, DeletedMessage(id))
    ensures multiset(r.filtered) == multiset(Select(r.allOrders, st.searchQuery, st.paymentFilter))
    ensures Sorted(r.filtered, st.sortField, st.sortDir)
    ensures r.totalPages == PageCount(|r.filtered|, PageSize) && r.paginated == Page(r.filtered, 1, PageSize)
    ensures r.(allOrders := st.allOrders, stats := st.stats, toasts := st.toasts, deleteTarget := st.deleteTarget,
               showConfirm := st.showConfirm, filtered := st.filtered, paginated := st.paginated, currentPage := st.currentPage,
               totalPages := st.totalPages) == st
  {
    Recompute(st.(allOrders := RemoveById(st.allOrders, Some(id)),
                  toasts := Toasts.ShowSuccess(st.toasts, DeletedMessage(id)),
                  deleteTarget := None, showConfirm := false))
  }

  /** `onConfirmDelete`: without a target or with a falsy id nothing
      happens. Otherwise, once the backend confirms, exactly the orders
      with the target's id leave the list, the dialog closes, a success
      toast is shown and the statistics and pipeline are recomputed; on
      failure only an error toast is added. */
  function ConfirmDelete(st: ListState, transport: nat -> OrderService.HttpOutcome<()>): (r: ListState)
    ensures !CanDelete(st) ==> r == st
    ensures CanDelete(st) && DeleteResult(st, transport).Ok? ==>
      r == DeleteSucceeded(st, st.deleteTarget.value.id.value)
    ensures CanDelete(st) && DeleteResult(st, transport).Fail? ==>
      r == st.(toasts := Toasts.ShowError(st.toasts, DeleteResult(st, transport).error))
  {
    if !CanDelete(st) then st
    else
      match DeleteResult(st, transport)
      case Ok(_) => DeleteSucceeded(st, st.deleteTarget.value.id.value)
      case Fail(msg) => st.(toasts := Toasts.ShowError(st.toasts, msg))
  }

  /** The request `onFormSave` sends: an update of the order's id when the
      id is truthy, a create otherwise. */
  function SaveRequest(st: ListState, order: Order): OrderService.Request {
    if Truthy(order.id) then OrderService.UpdateRequest(st.apiUrl, order.id.value, order)
    else OrderService.CreateRequest(st.apiUrl, order)
  }

  /** The outcome of that request. */
  function SaveResult(st: ListState, order: Order, transport: nat -> OrderService.HttpOutcome<Order>): Result<Order, string> {
    OrderService.Execute(SaveRequest(st, order), transport).0
  }

  const CreatedMessage: string := "Order created successfully"

  /** `onFormSave(order)`: after a confirmed update the first order with the
      returned id is replaced by the backend's version; after a confirmed
      create the returned order is put first. Either way the dialog closes,
      a success toast is shown and statistics and pipeline are recomputed.
      A failure only adds an error toast. */
  function FormSave(st: ListState, order: Order, transport: nat -> OrderService.HttpOutcome<Order>): (r: ListState)
    ensures var res := SaveResult(st, order, transport);
      res.Ok? && Truthy(order.id) ==>
        && r.allOrders == ReplaceFirst(st.allOrders, res.value)
        && |r.allOrders| == |st.allOrders|
        && Toasts.Latest(r.toasts) == Some(Toasts.Toast(st.toasts.counter + 1,
             "Order #" + IdString(res.value.id) + " updated successfully", Toasts.Success))
    ensures var res := SaveResult(st, order, transport);
      res.Ok? && !Truthy(order.id) ==>
        && r.allOrders == [res.value] + st.allOrders
        && Toasts.Latest(r.toasts) == Some(Toasts.Toast(st.toasts.counter + 1, CreatedMessage, Toasts.Success))
    ensures SaveResult(st, order, transport).Ok? ==>
      !r.showForm && r.stats == ComputeStats(r.allOrders) && r.currentPage == 1
    ensures SaveResult(st, order, transport).Ok? ==>
      && multiset(r.filtered) == multiset(Select(r.allOrders, st.searchQuery, st.paymentFilter))
      && Sorted(r.filtered, st.sortField, st.sortDir)
      && r.totalPages == PageCount(|r.filtered|, PageSize) && r.paginated == Page(r.filtered, 1, PageSize)
    ensures SaveResult(st, order, transport).Ok? ==>
      r.(allOrders := st.allOrders, stats := st.stats, toasts := st.toasts, showForm := st.showForm,
         filtered := st.filtered, paginated := st.paginated, currentPage := st.currentPage,
               totalPages := st.totalPages) == st
    ensures SaveResult(st, order, transport).Fail? ==>
      r == st.(toasts := Toasts.ShowError(st.toasts, SaveResult(st, order, transport).error))
  {
    match SaveResult(st, order, transport)
    case Ok(saved) =>
      var patched :=
        if Truthy(order.id) then
          st.(allOrders := ReplaceFirst(st.allOrders, saved),
              toasts := Toasts.ShowSuccess(st.toasts, "Order #" + IdString(saved.id) + " updated successfully"))
        else
          st.(allOrders := [saved] + st.allOrders,
              toasts := Toasts.ShowSuccess(st.toasts, CreatedMessage));
      ApplyFilters(UpdateStats(patched.(showForm := false)))
    case Fail(msg) => st.(toasts := Toasts.ShowError(st.toasts, msg))
  }

  // ---------------------------------------------------------- invariant

  /** Recomputing the pipeline after fixing the statistics restores the
      whole invariant. */
  lemma ApplyFiltersRestoresValid(st: ListState)
    requires st.stats == ComputeStats(st.allOrders) && Toasts.Valid(st.toasts)
    ensures Valid(ApplyFilters(st))
  {
  }

  /** Searching, filtering by payment and clearing the search keep the invariant. */
  lemma SearchKeepsValid(st: ListState, query: string, payment: string)
    ensures Valid(st) ==> Valid(Search(st, query)) && Valid(FilterByPayment(st, payment)) && Valid(ClearSearch(st))
  {
    if Valid(st) {
      ApplyFiltersRestoresValid(st.(searchQuery := query));
      ApplyFiltersRestoresValid(st.(paymentFilter := payment));
      ApplyFiltersRestoresValid(st.(searchQuery := ""));
    }
  }

  /** A header click keeps the invariant. */
  lemma SortByKeepsValid(st: ListState, f: Field)
    ensures Valid(st) ==> Valid(SortBy(st, f))
  {
  }

  /** Paging keeps the invariant, whether or not the page is in range. */
  lemma GoPageKeepsValid(st: ListState, p: int)
    ensures Valid(st) ==> Valid(GoPage(st, p))
  {
  }

  /** Loading and refreshing keep the invariant, whatever the backend answers. */
  lemma LoadKeepsValid(st: ListState, transport: nat -> OrderService.HttpOutcome<seq<Order>>)
    ensures Valid(st) ==> Valid(LoadOrders(st, transport)) && Valid(Refresh(st, transport))
  {
    if Valid(st) {
      var announced := st.(toasts := Toasts.ShowInfo(st.toasts, RefreshingMessage));
      Toasts.ShowKeepsValid(st.toasts, RefreshingMessage, Some(Toasts.Info));
      LoadOrdersKeepsValid(st, transport);
      LoadOrdersKeepsValid(announced, transport);
    }
  }

  lemma LoadOrdersKeepsValid(st: ListState, transport: nat -> OrderService.HttpOutcome<seq<Order>>)
    ensures Valid(st) ==> Valid(LoadOrders(st, transport))
  {
    var res := OrderService.Execute(OrderService.GetAllRequest(st.apiUrl), transport).0;
    if Valid(st) && res.Fail? {
      Toasts.ShowKeepsValid(st.toasts, res.error, Some(Toasts.Error));
    }
  }

  /** Opening and closing the dialogs keeps the invariant. */
  lemma DialogsKeepValid(st: ListState, o: Order)
    ensures Valid(st) ==> Valid(OpenCreate(st)) && Valid(OpenEdit(st, o)) && Valid(CloseForm(st))
    ensures Valid(st) ==> Valid(OpenDelete(st, o)) && Valid(CancelDelete(st))
  {
  }

  /** Confirming a delete keeps the invariant, whatever the backend answers. */
  lemma ConfirmDeleteKeepsValid(st: ListState, transport: nat -> OrderService.HttpOutcome<()>)
    ensures Valid(st) ==> Valid(ConfirmDelete(st, transport))
  {
    if Valid(st) {
      if CanDelete(st) {
        var id := st.deleteTarget.value.id.value;
        match DeleteResult(st, transport)
        case Ok(_) =>
          Toasts.ShowKeepsValid(st.toasts, DeletedMessage(id), Some(Toasts.Success));
          ApplyFiltersRestoresValid(UpdateStats(st.(allOrders := RemoveById(st.allOrders, Some(id)),
            toasts := Toasts.ShowSuccess(st.toasts, DeletedMessage(id)), deleteTarget := None, showConfirm := false)));
        case Fail(msg) =>
          Toasts.ShowKeepsValid(st.toasts, msg, Some(Toasts.Error));
      }
    }
  }

  /** Saving the form keeps the invariant, whatever the backend answers. */
  lemma FormSaveKeepsValid(st: ListState, order: Order, transport: nat -> OrderService.HttpOutcome<Order>)
    ensures Valid(st) ==> Valid(FormSave(st, order, transport))
  {
    if Valid(st) {
      match SaveResult(st, order, transport)
      case Ok(saved) =>
        var updated := "Order #" + IdString(saved.id) + " updated successfully";
        Toasts.ShowKeepsValid(st.toasts, updated, Some(Toasts.Success));
        Toasts.ShowKeepsValid(st.toasts, CreatedMessage, Some(Toasts.Success));
        var patched :=
          if Truthy(order.id) then
            st.(allOrders := ReplaceFirst(st.allOrders, saved), toasts := Toasts.ShowSuccess(st.toasts, updated))
          else
            st.(allOrders := [saved] + st.allOrders, toasts := Toasts.ShowSuccess(st.toasts, CreatedMessage));
        ApplyFiltersRestoresValid(UpdateStats(patched.(showForm := false)));
      case Fail(msg) =>
        Toasts.ShowKeepsValid(st.toasts, msg, Some(Toasts.Error));
    }
  }

  // -------------------------------------------------------------- badges

  /** The badge of a lower-cased payment mode: the lookup table of
      `getBadgeClass`, with the default for a missing key. */
  function BadgeName(key: string): string {
    if key == "upi" then "badge-upi"
    else if key == "card" then "badge-card"
    else if key == "cash" then "badge-cash"
    else if key == "netbanking" then "badge-netbanking"
    else "badge-default"
  }

  /** `getBadgeClass(pm)`. */
  function BadgeClass(pm: string): (r: string)
    ensures |r| > 6 && r[..6] == "badge "
    ensures r[6..] in {"badge-upi", "badge-card", "badge-cash", "badge-netbanking", "badge-default"}
  {
    "badge " + BadgeName(Text.Lower(pm))
  }

  /** The four payment modes' lookup keys. */
  lemma ModeKeys()
    ensures Text.Lower(ModeName(Upi)) == "upi" && Text.Lower(ModeName(Card)) == "card"
    ensures Text.Lower(ModeName(Cash)) == "cash" && Text.Lower(ModeName(NetBanking)) == "netbanking"
  {
    UpiKey();
    CardKey();
    CashKey();
    NetBankingKey();
  }

  lemma UpiKey() ensures Text.Lower(ModeName(Upi)) == "upi" { }
  lemma CardKey() ensures Text.Lower(ModeName(Card)) == "card" { }
  lemma CashKey() ensures Text.Lower(ModeName(Cash)) == "cash" { }
  lemma NetBankingKey() ensures Text.Lower(ModeName(NetBanking)) == "netbanking" { }

  lemma NamedBadge(key: string)
    requires key in {"upi", "card", "cash", "netbanking"}
    ensures BadgeName(key) == "badge-" + key
  {
  }

  /** A payment mode's key finds the badge named after it. */
  lemma BadgeOfMode(m: PaymentMode, key: string)
    requires key == Text.Lower(ModeName(m))
    ensures BadgeName(key) == "badge-" + key
  {
    ModeKeys();
    assert key in {"upi", "card", "cash", "netbanking"};
    NamedBadge(key);
  }

  /** Any other key falls back to the default badge. */
  lemma BadgeOfOther(key: string)
    requires forall m: PaymentMode :: key != Text.Lower(ModeName(m))
    ensures BadgeName(key) == "badge-default"
  {
    ModeKeys();
    assert key != Text.Lower(ModeName(Upi)) && key != Text.Lower(ModeName(Card));
    assert key != Text.Lower(ModeName(Cash)) && key != Text.Lower(ModeName(NetBanking));
  }

  /** A payment mode written in any letter case gets the badge named after
      the lower-cased mode; every other string gets the default badge. */
  lemma BadgeClassFollowsMode(pm: string)
    ensures forall m: PaymentMode :: Text.Lower(pm) == Text.Lower(ModeName(m)) ==>
      BadgeClass(pm) == "badge " + "badge-" + Text.Lower(pm)
    ensures (forall m: PaymentMode :: Text.Lower(pm) != Text.Lower(ModeName(m))) ==>
      BadgeClass(pm) == "badge " + "badge-default"
  {
    var key := Text.Lower(pm);
    forall m: PaymentMode | key == Text.Lower(ModeName(m))
      ensures BadgeClass(pm) == "badge " + "badge-" + key
    {
      BadgeOfMode(m, key);
    }
    if forall m: PaymentMode :: key != Text.Lower(ModeName(m)) {
      BadgeOfOther(key);
    }
  }

  // ----------------------------------------------------------- scenarios

  /** No optimistic updates: a failed save or delete leaves the order list,
      the statistics, the filtered list and the page untouched and adds
      exactly one error toast carrying the normalised message. */
  lemma FailureOnlyReportsError(st: ListState, order: Order,
                                saveTransport: nat -> OrderService.HttpOutcome<Order>,
                                deleteTransport: nat -> OrderService.HttpOutcome<()>)
    ensures SaveResult(st, order, saveTransport).Fail? ==>
      var r := FormSave(st, order, saveTransport);
      && r.allOrders == st.allOrders && r.stats == st.stats && r.filtered == st.filtered
      && r.currentPage == st.currentPage && r.showForm == st.showForm
      && |r.toasts.emitted| == |st.toasts.emitted| + 1
      && Toasts.Latest(r.toasts).value.kind == Toasts.Error
      && Toasts.Latest(r.toasts).value.message == SaveResult(st, order, saveTransport).error
    ensures CanDelete(st) && DeleteResult(st, deleteTransport).Fail? ==>
      var r := ConfirmDelete(st, deleteTransport);
      && r.allOrders == st.allOrders && r.stats == st.stats && r.filtered == st.filtered
      && r.deleteTarget == st.deleteTarget && r.showConfirm == st.showConfirm
      && r.currentPage == st.currentPage
      && |r.toasts.emitted| == |st.toasts.emitted| + 1
      && Toasts.Latest(r.toasts).value.kind == Toasts.Error
      && Toasts.Latest(r.toasts).value.message == DeleteResult(st, deleteTransport).error
  {
  }

  /** Deleting takes two steps: asking for the delete of order 2 changes
      no order, and confirming a successful request removes exactly the
      order with id 2. */
  lemma TwoPhaseDeleteExample(st: ListState, transport: nat -> OrderService.HttpOutcome<()>)
    requires transport(0).Response?
    requires st.allOrders == [
      Order(Some(1), "2025-06-15T10:30:00", Some(100), 5, "UPI", "A"),
      Order(Some(2), "2025-06-15T11:00:00", Some(50), 5, "Cash", "B")]
    ensures OpenDelete(st, st.allOrders[1]).allOrders == st.allOrders
    ensures ConfirmDelete(OpenDelete(st, st.allOrders[1]), transport).allOrders == [st.allOrders[0]]
  {
    var a, b := st.allOrders[0], st.allOrders[1];
    var asked := OpenDelete(st, b);
    assert CanDelete(asked);
    assert DeleteResult(asked, transport).Ok?;
    var removed := RemoveById(st.allOrders, Some(2));
    assert [a, b][1..] == [b];
    assert removed == [a];
  }
}

=== FILE: order_model.dfy ===
/** The records exchanged with the order-details backend. */
module OrderModel {
  import opened Wrappers
  import Text

  /** One order. `id` is absent until the backend assigns one; `total` is
      kept in the smallest currency unit (paise) and may be absent from a
      malformed record, which is what the list's `|| 0` guards against. */
  datatype Order = Order(
    id: Option<int>,
    dateOfPurchase: string,
    total: Option<int>,
    customerId: int,
    paymentMode: string,
    shopId: string)

  /** The figures shown above the order table. `avgOrder` is a real
      because it is a quotient. */
  datatype OrderStats = OrderStats(
    total: nat,
    revenue: int,
    avgOrder: real,
    uniqueCustomers: nat)

  /** The four payment modes the form offers. */
  datatype PaymentMode = Upi | Card | Cash | NetBanking

  /** The list the form's drop-down is built from, in display order. */
  const PaymentModes: seq<PaymentMode> := [Upi, Card, Cash, NetBanking]

  /** The text a payment mode is stored as. */
  function ModeName(m: PaymentMode): string {
    match m
    case Upi => "UPI"
    case Card => "Card"
    case Cash => "Cash"
    case NetBanking => "NetBanking"
  }

  /** Every payment mode is offered exactly once, and the stored names stay
      distinct after lower-casing, so a case-insensitive match on the stored
      name still identifies the mode. */
  lemma PaymentModesDistinct()
    ensures |PaymentModes| == 4
    ensures forall m: PaymentMode :: m in PaymentModes
    ensures forall m1: PaymentMode, m2: PaymentMode :: m1 != m2 ==>
      Text.Lower(ModeName(m1)) != Text.Lower(ModeName(m2))
  {
    forall m: PaymentMode ensures m in PaymentModes {
      assert m == PaymentModes[0] || m == PaymentModes[1] || m == PaymentModes[2] || m == PaymentModes[3];
    }
    forall m1: PaymentMode, m2: PaymentMode | m1 != m2
      ensures Text.Lower(ModeName(m1)) != Text.Lower(ModeName(m2))
    {
      if {m1, m2} == {Card, Cash} {
        assert Text.Lower(ModeName(Card))[2] != Text.Lower(ModeName(Cash))[2];
      }
    }
  }

  /** JavaScript truthiness of an optional number: present and non-zero. */
  predicate Truthy(n: Option<int>) {
    n.Some? && n.value != 0
  }

  /** `String(o.id)`: the decimal id, or "undefined" when there is none. */
  function IdString(id: Option<int>): (r: string)
    ensures id.None? ==> r == "undefined"
    ensures id.Some? ==> Text.ParseInt(r) == Some(id.value)
    ensures id.Some? && id.value >= 0 ==> r == Text.NatToDecimal(id.value)
    ensures id.Some? && id.value < 0 ==> r == "-" + Text.NatToDecimal(-id.value)
  {
    match id
    case None => "undefined"
    case Some(k) => Text.IntToStringRoundTrip(k); Text.IntToString(k)
  }

  /** `(o.total || 0)`: a missing total counts as zero. */
  function TotalOrZero(o: Order): int {
    o.total.GetOr(0)
  }
}

=== FILE: order_service.dfy ===
/** The CRUD client for the `orderdetails` collection: the five requests it
    sends, the single automatic retry of the list read, and the mapping of
    every HTTP failure onto one user-facing message. The transport itself is
    a parameter: `transport(k)` is what the k-th attempt (counting from 0)
    gets back. */
module OrderService {
  import opened Wrappers
  import opened OrderModel
  import Text

  /** What an `HttpErrorResponse` contributes: its status (0 when the
      server could not be reached) and its message. */
  datatype HttpError = HttpError(status: int, message: string)

  /** What one HTTP attempt gets back. */
  datatype HttpOutcome<+T> = Response(body: T) | Failed(error: HttpError)

  // ------------------------------------------------------------ messages

  const UnknownErrorMessage: string := "An unknown error occurred"
  // Written as two literals: Dafny does not index into a literal this long,
  // and the proofs below need its first character.
  const UnreachableMessage: string := "Cannot reach server." + " Is Spring Boot running on port 8080?"
  const NotFoundMessage: string := "Order not found."
  const InvalidDataMessage: string := "Invalid data. Please check your inputs."
  const ServerErrorPrefix: string := "Server error "

  /** The failure classes the messages stand for. */
  datatype ErrorClass = Unreachable | NotFound | InvalidData | ServerError(status: int)

  /** Which class a status belongs to. */
  function Classify(status: int): ErrorClass {
    if status == 0 then Unreachable
    else if status == 404 then NotFound
    else if status == 400 then InvalidData
    else ServerError(status)
  }

  /** The message `handleError` puts in the `Error` it throws. */
  function ErrorMessage(e: HttpError): (msg: string)
    ensures Classify(e.status) == Unreachable ==> msg == UnreachableMessage
    ensures Classify(e.status) == NotFound ==> msg == NotFoundMessage
    ensures Classify(e.status) == InvalidData ==> msg == InvalidDataMessage
    ensures Classify(e.status).ServerError? ==>
      msg == ServerErrorPrefix + Text.IntToString(e.status) + ": " + e.message
    ensures msg != UnknownErrorMessage
  {
    if e.status == 0 then UnreachableMessage
    else if e.status == 404 then NotFoundMessage
    else if e.status == 400 then InvalidDataMessage
    else
      var m := ServerErrorPrefix + Text.IntToString(e.status) + ": " + e.message;
      assert m[0] == 'S' != UnknownErrorMessage[0];
      m
  }

  /** `handleError`: every failure becomes an errored result carrying the
      normalised message; there is no path that recovers a value. */
  function HandleError<T>(e: HttpError): (r: Result<T, string>)
    ensures r.Fail?
    ensures r.error == ErrorMessage(e)
    ensures r.error != UnknownErrorMessage
  {
    Fail(ErrorMessage(e))
  }

  predicate NoColon(s: string) {
    forall i :: 0 <= i < |s| ==> s[i] != ':'
  }

  /** Index of the first ':' in `s`, or `|s|` when there is none. */
  function ColonIndex(s: string): (k: nat)
    ensures k <= |s|
  {
    if |s| == 0 || s[0] == ':' then 0 else 1 + ColonIndex(s[1..])
  }

  lemma {:induction false} ColonIndexAfter(a: string, rest: string)
    requires NoColon(a) && |rest| > 0 && rest[0] == ':'
    ensures ColonIndex(a + rest) == |a|
    decreases |a|
  {
    if |a| > 0 {
      assert (a + rest)[1..] == a[1..] + rest;
      ColonIndexAfter(a[1..], rest);
    }
  }

  lemma SplitAtColon(a: string, b: string, m1: string, m2: string)
    requires NoColon(a) && NoColon(b)
    requires a + ": " + m1 == b + ": " + m2
    ensures a == b && m1 == m2
  {
    var l := a + ": " + m1;
    assert a + ": " + m1 == a + (": " + m1);
    assert b + ": " + m2 == b + (": " + m2);
    ColonIndexAfter(a, ": " + m1);
    ColonIndexAfter(b, ": " + m2);
    assert a == l[..|a|] == b;
    assert m1 == l[|a| + 2..] == m2;
  }

  /** A message identifies its failure class: two failures with the same
      message have the same class, and a server error's message also pins
      down its status and the underlying transport message. */
  lemma {:induction false} MessageDeterminesClass(e1: HttpError, e2: HttpError)
    requires ErrorMessage(e1) == ErrorMessage(e2)
    ensures Classify(e1.status) == Classify(e2.status)
    ensures Classify(e1.status).ServerError? ==> e1 == e2
  {
    var m1, m2 := ErrorMessage(e1), ErrorMessage(e2);
    var c1, c2 := Classify(e1.status), Classify(e2.status);
    var p := |ServerErrorPrefix|;
    if c1.ServerError? && c2.ServerError? {
      var rest1 := Text.IntToString(e1.status) + ": " + e1.message;
      var rest2 := Text.IntToString(e2.status) + ": " + e2.message;
      assert m1 == ServerErrorPrefix + rest1 && m2 == ServerErrorPrefix + rest2;
      assert rest1 == m1[p..] == m2[p..] == rest2;
      DecimalHasNoColon(e1.status);
      DecimalHasNoColon(e2.status);
      SplitAtColon(Text.IntToString(e1.status), Text.IntToString(e2.status), e1.message, e2.message);
      Text.IntToStringInjective(e1.status, e2.status);
    } else if c1.ServerError? {
      assert m1[0] == 'S';
      NonServerMessageInitial(e2);
    } else if c2.ServerError? {
      assert m2[0] == 'S';
      NonServerMessageInitial(e1);
    }
  }

  lemma NonServerMessageInitial(e: HttpError)
    requires !Classify(e.status).ServerError?
    ensures ErrorMessage(e)[0] != 'S'
  {
    if e.status == 0 {
      assert ErrorMessage(e) == UnreachableMessage;
    } else if e.status == 404 {
      assert ErrorMessage(e)[0] == 'O';
    } else {
      assert ErrorMessage(e)[0] == 'I';
    }
  }

  lemma DecimalHasNoColon(n: int)
    ensures NoColon(Text.IntToString(n))
  {
    var s := Text.IntToString(n);
    forall i | 0 <= i < |s| ensures s[i] != ':' {
      if n < 0 && i > 0 {
        assert s[i] == s[1..][i - 1];
      }
    }
  }

  // ------------------------------------------------------------ requests

  datatype Verb = Get | Post | Put | Delete

  /** How many times a request may be sent: at least once. */
  type Attempts = n: nat | 1 <= n witness 1

  datatype Request = Request(verb: Verb, url: string, body: Option<Order>, attempts: Attempts)

  /** `${apiUrl}/${id}`. */
  function ItemUrl(api: string, id: int): string {
    api + "/" + Text.IntToString(id)
  }

  /** The id an item URL under `api` addresses, or `None` for any other URL
      (the collection URL included). */
  function IdOfUrl(api: string, url: string): Option<int> {
    var prefix := api + "/";
    if |prefix| <= |url| && url[..|prefix|] == prefix then Text.ParseInt(url[|prefix|..])
    else None
  }

  /** `getAll`: GET on the collection, retried once. */
  function GetAllRequest(api: string): (r: Request)
    ensures r.verb == Get && r.body == None && r.attempts == 2
    ensures r.url == api && IdOfUrl(api, r.url) == None
  {
    Request(Get, api, None, 2)
  }

  /** `getById(id)`: GET on the item. */
  function GetByIdRequest(api: string, id: int): (r: Request)
    ensures r.verb == Get && r.body == None && r.attempts == 1
    ensures IdOfUrl(api, r.url) == Some(id)
  {
    ItemUrlRoundTrip(api, id);
    Request(Get, ItemUrl(api, id), None, 1)
  }

  /** `create(order)`: POST of the order to the collection. */
  function CreateRequest(api: string, order: Order): (r: Request)
    ensures r.verb == Post && r.body == Some(order) && r.attempts == 1
    ensures r.url == api && IdOfUrl(api, r.url) == None
  {
    Request(Post, api, Some(order), 1)
  }

  /** `update(id, order)`: PUT of the order to the item. */
  function UpdateRequest(api: string, id: int, order: Order): (r: Request)
    ensures r.verb == Put && r.body == Some(order) && r.attempts == 1
    ensures IdOfUrl(api, r.url) == Some(id)
  {
    ItemUrlRoundTrip(api, id);
    Request(Put, ItemUrl(api, id), Some(order), 1)
  }

  /** `delete(id)`: DELETE on the item. */
  function DeleteRequest(api: string, id: int): (r: Request)
    ensures r.verb == Delete && r.body == None && r.attempts == 1
    ensures IdOfUrl(api, r.url) == Some(id)
  {
    ItemUrlRoundTrip(api, id);
    Request(Delete, ItemUrl(api, id), None, 1)
  }

  lemma ItemUrlRoundTrip(api: string, id: int)
    ensures IdOfUrl(api, ItemUrl(api, id)) == Some(id)
  {
    var url := ItemUrl(api, id);
    assert url[..|api + "/"|] == api + "/";
    assert url[|api + "/"|..] == Text.IntToString(id);
    Text.IntToStringRoundTrip(id);
  }

  /** The five request shapes: list and create address the collection and
      no single order; get-one, update and delete address exactly the order
      with the given id; only the list read may be sent twice; create and
      update carry the order as their body. */
  lemma RequestShapes(api: string, id: int, order: Order)
    ensures GetAllRequest(api).verb == Get && GetAllRequest(api).body == None
    ensures CreateRequest(api, order).verb == Post && CreateRequest(api, order).body == Some(order)
    ensures GetAllRequest(api).url == api && CreateRequest(api, order).url == api
    ensures IdOfUrl(api, api) == None
    ensures GetByIdRequest(api, id).verb == Get && UpdateRequest(api, id, order).verb == Put
    ensures DeleteRequest(api, id).verb == Delete
    ensures IdOfUrl(api, GetByIdRequest(api, id).url) == Some(id)
    ensures IdOfUrl(api, UpdateRequest(api, id, order).url) == Some(id)
    ensures IdOfUrl(api, DeleteRequest(api, id).url) == Some(id)
    ensures UpdateRequest(api, id, order).body == Some(order)
    ensures GetByIdRequest(api, id).body == None && DeleteRequest(api, id).body == None
    ensures GetAllRequest(api).attempts == 2
    ensures GetByIdRequest(api, id).attempts == 1 && CreateRequest(api, order).attempts == 1
    ensures UpdateRequest(api, id, order).attempts == 1 && DeleteRequest(api, id).attempts == 1
  {
    ItemUrlRoundTrip(api, id);
  }

  // ----------------------------------------------------------- execution

  /** Sends attempt `k` and, while attempts remain, resends after a
      failure; the pair holds the result and the number of attempts made
      so far. */
  function Retry<T>(transport: nat -> HttpOutcome<T>, k: nat, budget: Attempts): (r: (Result<T, string>, nat))
    ensures k + 1 <= r.1 <= k + budget
    ensures forall j :: k <= j < r.1 - 1 ==> transport(j).Failed?
    ensures r.0.Ok? <==> transport(r.1 - 1).Response?
    ensures r.0.Ok? ==> r.0.value == transport(r.1 - 1).body
    ensures r.0.Fail? ==> r.1 == k + budget && r.0.error == ErrorMessage(transport(r.1 - 1).error)
    decreases budget
  {
    match transport(k)
    case Response(v) => (Ok(v), k + 1)
    case Failed(e) =>
      if budget == 1 then (HandleError(e), k + 1)
      else Retry(transport, k + 1, budget - 1)
  }

  /** A request piped through `retry` (when allowed) and `catchError`:
      the first successful attempt's body, or, once every allowed attempt
      has failed, the normalised message of the last failure. */
  function Execute<T>(req: Request, transport: nat -> HttpOutcome<T>): (r: (Result<T, string>, nat))
    ensures 1 <= r.1 <= req.attempts
    ensures forall j :: 0 <= j < r.1 - 1 ==> transport(j).Failed?
    ensures r.0.Ok? <==> transport(r.1 - 1).Response?
    ensures r.0.Ok? ==> r.0.value == transport(r.1 - 1).body
    ensures r.0.Fail? ==> r.1 == req.attempts && r.0.error == ErrorMessage(transport(r.1 - 1).error)
  {
    Retry(transport, 0, req.attempts)
  }

  /** The list read survives one failed attempt; every other request fails
      on its first failure. */
  lemma RetryPolicy<T>(api: string, id: int, order: Order, transport: nat -> HttpOutcome<T>)
    ensures transport(0).Failed? && transport(1).Response? ==>
      Execute(GetAllRequest(api), transport) == (Ok(transport(1).body), 2)
    ensures transport(0).Failed? ==>
      && Execute(DeleteRequest(api, id), transport) == (Fail(ErrorMessage(transport(0).error)), 1)
      && Execute(CreateRequest(api, order), transport) == (Fail(ErrorMessage(transport(0).error)), 1)
      && Execute(UpdateRequest(api, id, order), transport) == (Fail(ErrorMessage(transport(0).error)), 1)
      && Execute(GetByIdRequest(api, id), transport) == (Fail(ErrorMessage(transport(0).error)), 1)
  {
  }
}

=== FILE: pagination.dfy ===
/** The last stage of the list pipeline: cutting the sorted list into
    fixed-size, 1-based pages. */
module Pagination {

  /** `Math.ceil(n / size) || 1`: the number of pages, at least one. */
  function PageCount(n: nat, size: nat): (r: nat)
    requires size > 0
    ensures r >= 1
    ensures n == 0 ==> r == 1
    ensures n <= r * size
    ensures n == 0 || (r - 1) * size < n
  {
    if n == 0 then 1
    else
      var q, m := (n + size - 1) / size, (n + size - 1) % size;
      assert n + size - 1 == q * size + m;
      assert (q - 1) * size == q * size - size;
      q
  }

  /** For a non-empty list the page count is the only number of pages that
      holds every row with no page left empty: exactly the ceiling. */
  lemma PageCountUnique(n: nat, size: nat, k: nat)
    requires size > 0 && n > 0
    requires n <= k * size
    requires (k - 1) * size < n
    ensures k == PageCount(n, size)
  {
    var r := PageCount(n, size);
    MulMonotone(k, r - 1, size);
    MulMonotone(r, k - 1, size);
  }

  lemma MulMonotone(a: int, b: int, c: nat)
    ensures a <= b ==> a * c <= b * c
  {
    if a <= b {
      assert b * c - a * c == (b - a) * c;
    }
  }

  /** How `Array.prototype.slice` reads an index: negative counts from the
      end, and the result is clamped to `[0, len]`. */
  function ResolveIndex(i: int, len: nat): (r: nat)
    ensures r <= len
    ensures 0 <= i <= len ==> r == i
    ensures i > len ==> r == len
    ensures i < 0 ==> r == if len + i < 0 then 0 else len + i
  {
    if i < 0 then (if len + i < 0 then 0 else len + i)
    else if i > len then len
    else i
  }

  /** `s.slice(start, end)`. */
  function Slice<T>(s: seq<T>, start: int, end: int): (r: seq<T>)
    ensures var a, b := ResolveIndex(start, |s|), ResolveIndex(end, |s|);
      |r| == (if a < b then b - a else 0) && forall i :: 0 <= i < |r| ==> r[i] == s[a + i]
    ensures var a, b := ResolveIndex(start, |s|), ResolveIndex(end, |s|);
      a <= b ==> r == s[a..b]
  {
    var a, b := ResolveIndex(start, |s|), ResolveIndex(end, |s|);
    if a < b then s[a..b] else []
  }

  function Min(a: int, b: int): int {
    if a <= b then a else b
  }

  /** Page `page` of `s`: the slice from `(page - 1) * size`, `size`
      elements long. For a real page (1 or more) it is the stretch of `s`
      between those bounds, cut at the end of `s`. */
  function Page<T>(s: seq<T>, page: int, size: nat): (r: seq<T>)
    requires size > 0
    ensures page >= 1 ==>
      Min((page - 1) * size, |s|) <= Min(page * size, |s|) &&
      r == s[Min((page - 1) * size, |s|)..Min(page * size, |s|)]
    ensures |r| <= size
  {
    var start := (page - 1) * size;
    PageOffsets(page, size);
    ResolveSpread(start, start + size, |s|);
    var r := Slice(s, start, start + size);
    assert page >= 1 ==>
      (ResolveIndex(start, |s|) == Min(start, |s|) && ResolveIndex(start + size, |s|) == Min(start + size, |s|));
    r
  }

  /** Page `page` starts `(page - 1) * size` rows in and its end lies
      `size` rows further on. */
  lemma PageOffsets(page: int, size: nat)
    ensures (page - 1) * size + size == page * size
    ensures page >= 1 ==> (page - 1) * size >= 0
  {
  }

  /** Resolving two ordered indices never spreads them further apart. */
  lemma ResolveSpread(i: int, j: int, len: nat)
    requires i <= j
    ensures ResolveIndex(j, len) - ResolveIndex(i, len) <= j - i
  {
  }

  /** Pages 1..k laid end to end. */
  function Pages<T>(s: seq<T>, size: nat, k: nat): seq<T>
    requires size > 0
  {
    if k == 0 then [] else Pages(s, size, k - 1) + Page(s, k, size)
  }

  lemma {:induction false} PagesArePrefix<T>(s: seq<T>, size: nat, k: nat)
    requires size > 0
    ensures Pages(s, size, k) == s[..Min(k * size, |s|)]
  {
    if k > 0 {
      PageOffsets(k, size);
      var lo, hi := Min((k - 1) * size, |s|), Min(k * size, |s|);
      assert lo <= hi && Page(s, k, size) == s[lo..hi];
      PagesArePrefix(s, size, k - 1);
      assert Pages(s, size, k) == s[..lo] + s[lo..hi];
      PrefixSplit(s, lo, hi);
    }
  }

  lemma PrefixSplit<T>(s: seq<T>, lo: nat, hi: nat)
    requires lo <= hi <= |s|
    ensures s[..lo] + s[lo..hi] == s[..hi]
  {
  }

  /** Concatenating every page in order gives back the whole list. */
  lemma AllPagesReproduceList<T>(s: seq<T>, size: nat)
    requires size > 0
    ensures Pages(s, size, PageCount(|s|, size)) == s
  {
    PagesArePrefix(s, size, PageCount(|s|, size));
  }

  /** `paginationStart`: the 1-based position of the page's first row. */
  function PaginationStart(page: int, size: nat): (r: int)
    ensures page >= 1 ==> r >= 1
    ensures r - 1 + size == page * size
  {
    (page - 1) * size + 1
  }

  /** `paginationEnd`: the 1-based position of the page's last row. */
  function PaginationEnd(page: int, size: nat, n: nat): (r: int)
    ensures r <= n && r <= page * size
    ensures r == n || r == page * size
  {
    Min(page * size, n)
  }

  /** For a valid page, the rows before `paginationStart` are exactly the
      rows of the earlier pages, and `paginationEnd` counts the rows up to
      and including this page. */
  lemma {:induction false} PaginationFollowsEarlierPages<T>(s: seq<T>, page: int, size: nat)
    requires size > 0
    requires 1 <= page <= PageCount(|s|, size)
    ensures PaginationStart(page, size) - 1 == |Pages(s, size, page - 1)|
    ensures PaginationEnd(page, size, |s|) == |Pages(s, size, page)|
  {
    var r := PageCount(|s|, size);
    var before, upto := (page - 1) * size, page * size;
    MulMonotone(page - 1, r - 1, size);
    assert before <= |s| by {
      if |s| == 0 { assert page == 1; }
    }
    assert PaginationStart(page, size) == before + 1;
    assert PaginationEnd(page, size, |s|) == Min(upto, |s|);
    PagesLength(s, size, page - 1);
    PagesLength(s, size, page);
  }

  lemma PagesLength<T>(s: seq<T>, size: nat, k: nat)
    requires size > 0
    ensures |Pages(s, size, k)| == Min(k * size, |s|)
  {
    PagesArePrefix(s, size, k);
  }

  /** For a valid page of a non-empty list, "showing start to end" names
      exactly the rows of that page: both ends lie within the list and the
      range is as long as the page. */
  lemma PaginationRangeMatchesPage<T>(s: seq<T>, page: int, size: nat)
    requires size > 0 && |s| > 0
    requires 1 <= page <= PageCount(|s|, size)
    ensures 1 <= PaginationStart(page, size) <= PaginationEnd(page, size, |s|) <= |s|
    ensures PaginationEnd(page, size, |s|) - PaginationStart(page, size) + 1 == |Page(s, page, size)|
  {
    var r := PageCount(|s|, size);
    assert (page - 1) * size <= (r - 1) * size;
    assert page * size == (page - 1) * size + size;
  }
}

=== FILE: sorting.dfy ===
/** The second stage of the list pipeline: `sortData`, which sorts the
    filtered orders by one field with the comparator the component hands to
    `Array.prototype.sort`. That sort is stable; here it is a stable
    insertion sort. */
module Sorting {
  import opened OrderModel
  import Text

  /** `keyof OrderDetails`. */
  datatype Field = IdField | DateField | TotalField | CustomerField | PaymentField | ShopField

  datatype Direction = Asc | Desc

  /** A field value as the comparator sees it: a number, a string (already
      lower-cased), or `undefined` for an absent optional field. */
  datatype Key = Undefined | Num(n: int) | Str(s: string)

  /** `a[field]`, lower-cased when it is a string. */
  function KeyOf(o: Order, f: Field): Key {
    match f
    case IdField => if o.id.Some? then Num(o.id.value) else Undefined
    case DateField => Str(Text.Lower(o.dateOfPurchase))
    case TotalField => if o.total.Some? then Num(o.total.value) else Undefined
    case CustomerField => Num(o.customerId)
    case PaymentField => Str(Text.Lower(o.paymentMode))
    case ShopField => Str(Text.Lower(o.shopId))
  }

  /** JavaScript's `va < vb` on two values of one field: numeric for
      numbers, lexicographic for strings, and false whenever `undefined` is
      involved. */
  predicate KeyLess(a: Key, b: Key) {
    match (a, b)
    case (Num(x), Num(y)) => x < y
    case (Str(x), Str(y)) => Text.LexLess(x, y)
    case _ => false
  }

  lemma KeyLessAsymmetric(a: Key, b: Key)
    ensures !(KeyLess(a, b) && KeyLess(b, a))
  {
    if a.Str? && b.Str? {
      Text.LexLessAsymmetric(a.s, b.s);
    }
  }

  /** The comparator: negative when `a` goes first, positive when `b` does,
      zero when neither key is below the other. */
  function Compare(f: Field, d: Direction, a: Order, b: Order): (c: int)
    ensures -1 <= c <= 1
    ensures c == 0 <==> !KeyLess(KeyOf(a, f), KeyOf(b, f)) && !KeyLess(KeyOf(b, f), KeyOf(a, f))
    ensures d == Asc ==> (c < 0 <==> KeyLess(KeyOf(a, f), KeyOf(b, f)))
    ensures d == Desc ==> (c < 0 <==> KeyLess(KeyOf(b, f), KeyOf(a, f)))
  {
    var va, vb := KeyOf(a, f), KeyOf(b, f);
    KeyLessAsymmetric(va, vb);
    if KeyLess(va, vb) then (if d == Asc then -1 else 1)
    else if KeyLess(vb, va) then (if d == Asc then 1 else -1)
    else 0
  }

  /** Swapping the arguments negates the comparator. */
  lemma CompareAntisymmetric(f: Field, d: Direction, a: Order, b: Order)
    ensures Compare(f, d, b, a) == -Compare(f, d, a, b)
  {
    KeyLessAsymmetric(KeyOf(a, f), KeyOf(b, f));
  }

  /** Reversing the direction negates the comparator. */
  lemma DirectionsOpposite(f: Field, a: Order, b: Order)
    ensures Compare(f, Desc, a, b) == -Compare(f, Asc, a, b)
  {
    KeyLessAsymmetric(KeyOf(a, f), KeyOf(b, f));
  }

  /** No neighbour pair is out of order: ascending means no key is below
      its predecessor's, descending means no key is above it. */
  ghost predicate Sorted(s: seq<Order>, f: Field, d: Direction) {
    forall i :: 0 <= i < |s| - 1 ==> Compare(f, d, s[i], s[i + 1]) <= 0
  }

  /** Places `x` before the first element it does not compare above. */
  function Insert(x: Order, s: seq<Order>, f: Field, d: Direction): (r: seq<Order>)
    ensures |r| == |s| + 1
    ensures multiset(r) == multiset(s) + multiset{x}
    ensures r[0] == x || (|s| > 0 && r[0] == s[0])
  {
    if |s| == 0 then [x]
    else if Compare(f, d, x, s[0]) <= 0 then [x] + s
    else
      assert s == [s[0]] + s[1..];
      [s[0]] + Insert(x, s[1..], f, d)
  }

  /** Inserting into an ordered list keeps it ordered. */
  lemma {:induction false} InsertKeepsSorted(x: Order, s: seq<Order>, f: Field, d: Direction)
    requires Sorted(s, f, d)
    ensures Sorted(Insert(x, s, f, d), f, d)
    decreases |s|
  {
    if |s| > 0 && Compare(f, d, x, s[0]) > 0 {
      var tail := s[1..];
      assert Sorted(tail, f, d) by {
        forall i | 0 <= i < |tail| - 1
          ensures Compare(f, d, tail[i], tail[i + 1]) <= 0
        {
          assert tail[i] == s[i + 1] && tail[i + 1] == s[i + 2];
        }
      }
      InsertKeepsSorted(x, tail, f, d);
      var rest := Insert(x, tail, f, d);
      var r := [s[0]] + rest;
      assert Compare(f, d, s[0], rest[0]) <= 0 by {
        if rest[0] == x {
          CompareAntisymmetric(f, d, x, s[0]);
        } else {
          assert rest[0] == s[1];
        }
      }
      forall i | 0 <= i < |r| - 1
        ensures Compare(f, d, r[i], r[i + 1]) <= 0
      {
        if i > 0 {
          assert r[i] == rest[i - 1] && r[i + 1] == rest[i];
        }
      }
    }
  }

  /** `sortData`: a permutation of the input with no neighbour pair out of
      order. */
  function SortData(s: seq<Order>, f: Field, d: Direction): (r: seq<Order>)
    ensures |r| == |s|
    ensures multiset(r) == multiset(s)
    ensures Sorted(r, f, d)
  {
    if |s| == 0 then []
    else
      assert s == [s[0]] + s[1..];
      var rest := SortData(s[1..], f, d);
      InsertKeepsSorted(s[0], rest, f, d);
      Insert(s[0], rest, f, d)
  }

  /** A list already in order is left exactly as it is. */
  lemma {:induction false} SortDataKeepsSorted(s: seq<Order>, f: Field, d: Direction)
    requires Sorted(s, f, d)
    ensures SortData(s, f, d) == s
    decreases |s|
  {
    if |s| > 0 {
      assert Sorted(s[1..], f, d) by {
        forall i | 0 <= i < |s[1..]| - 1
          ensures Compare(f, d, s[1..][i], s[1..][i + 1]) <= 0
        {
          assert s[1..][i] == s[i + 1] && s[1..][i + 1] == s[i + 2];
        }
      }
      SortDataKeepsSorted(s[1..], f, d);
      assert s == [s[0]] + s[1..];
    }
  }

  /** Sorting twice by the same field and direction sorts once. */
  lemma SortDataIdempotent(s: seq<Order>, f: Field, d: Direction)
    ensures SortData(SortData(s, f, d), f, d) == SortData(s, f, d)
  {
    SortDataKeepsSorted(SortData(s, f, d), f, d);
  }

  /** Every order has a value for the field. */
  ghost predicate AllDefined(s: seq<Order>, f: Field) {
    forall i :: 0 <= i < |s| ==> !KeyOf(s[i], f).Undefined?
  }

  /** When every order has a value for the field, "goes no later than" is
      transitive. */
  lemma CompareTransitive(f: Field, d: Direction, a: Order, b: Order, c: Order)
    requires !KeyOf(a, f).Undefined? && !KeyOf(b, f).Undefined? && !KeyOf(c, f).Undefined?
    requires Compare(f, d, a, b) <= 0 && Compare(f, d, b, c) <= 0
    ensures Compare(f, d, a, c) <= 0
  {
    var ka, kb, kc := KeyOf(a, f), KeyOf(b, f), KeyOf(c, f);
    if ka.Str? {
      Text.LexLessTotal(ka.s, kb.s);
      Text.LexLessTotal(kb.s, kc.s);
      Text.LexLessAsymmetric(ka.s, kc.s);
      if Text.LexLess(ka.s, kb.s) && Text.LexLess(kb.s, kc.s) {
        Text.LexLessTransitive(ka.s, kb.s, kc.s);
      }
      if Text.LexLess(kc.s, kb.s) && Text.LexLess(kb.s, ka.s) {
        Text.LexLessTransitive(kc.s, kb.s, ka.s);
      }
    }
  }

  /** With every key present the comparator is a total preorder, so the
      neighbour-wise order extends to every pair: in an ascending result no
      key is below an earlier one, in a descending result none is above. */
  lemma {:induction false} SortedPairwise(s: seq<Order>, f: Field, d: Direction, i: int, j: int)
    requires Sorted(s, f, d) && AllDefined(s, f)
    requires 0 <= i < j < |s|
    ensures Compare(f, d, s[i], s[j]) <= 0
    decreases j - i
  {
    if j > i + 1 {
      SortedPairwise(s, f, d, i + 1, j);
      CompareTransitive(f, d, s[i], s[i + 1], s[j]);
    }
  }
}

=== FILE: stats.dfy ===
/** The figures above the order table, recomputed from the whole order
    list after every load and every confirmed change. */
module OrderStatistics {
  import opened Wrappers
  import opened OrderModel

  /** Σ (o.total || 0) over the list, folded left to right as `reduce`
      does. */
  function Revenue(orders: seq<Order>): int {
    if |orders| == 0 then 0
    else Revenue(orders[..|orders| - 1]) + TotalOrZero(orders[|orders| - 1])
  }

  /** Revenue is additive over concatenation, so it does not depend on
      where the fold splits the list. */
  lemma {:induction false} RevenueAppend(a: seq<Order>, b: seq<Order>)
    ensures Revenue(a + b) == Revenue(a) + Revenue(b)
    decreases |b|
  {
    if |b| > 0 {
      assert (a + b)[..|a + b| - 1] == a + b[..|b| - 1];
      RevenueAppend(a, b[..|b| - 1]);
    } else {
      assert a + b == a;
    }
  }

  /** The set of customer ids occurring in the list, built by the same
      left-to-right walk as `new Set(orders.map(o => o.customerId))`. */
  function CustomerIds(orders: seq<Order>): (r: set<int>)
    ensures r == set o | o in orders :: o.customerId
    ensures |r| <= |orders|
    ensures |orders| > 0 ==> |r| >= 1
  {
    if |orders| == 0 then {}
    else
      var init := orders[..|orders| - 1];
      var last := orders[|orders| - 1];
      assert orders == init + [last];
      CustomerIds(init) + {last.customerId}
  }

  /** `n ? rev / n : 0`. */
  function Average(rev: int, n: nat): (a: real)
    ensures n == 0 ==> a == 0.0
    ensures n > 0 ==> a * (n as real) == rev as real
  {
    if n != 0 then rev as real / n as real else 0.0
  }

  /** `updateStats`: the count, the revenue with missing totals as zero,
      the average (zero for an empty list) and the number of distinct
      customers. */
  function ComputeStats(orders: seq<Order>): (r: OrderStats)
    ensures r.total == |orders|
    ensures r.revenue == Revenue(orders)
    ensures r.total == 0 ==> r.avgOrder == 0.0
    ensures r.total > 0 ==> r.avgOrder == r.revenue as real / r.total as real
    ensures r.uniqueCustomers == |set o | o in orders :: o.customerId|
    ensures r.uniqueCustomers <= r.total
    ensures r.total > 0 ==> r.uniqueCustomers >= 1
  {
    var n := |orders|;
    var rev := Revenue(orders);
    OrderStats(n, rev, Average(rev, n), |CustomerIds(orders)|)
  }

  /** Prepending a created order adds one to the count and its total (or
      zero) to the revenue; the customer count grows by one exactly when the
      customer is new. */
  lemma StatsAfterPrepend(o: Order, orders: seq<Order>)
    ensures ComputeStats([o] + orders).total == ComputeStats(orders).total + 1
    ensures ComputeStats([o] + orders).revenue == ComputeStats(orders).revenue + TotalOrZero(o)
    ensures ComputeStats([o] + orders).uniqueCustomers ==
      ComputeStats(orders).uniqueCustomers + (if o.customerId in CustomerIds(orders) then 0 else 1)
  {
    RevenueAppend([o], orders);
    assert Revenue([o]) == TotalOrZero(o) by {
      assert [o][..0] == [];
    }
    CustomerIdsPrepend(o, orders);
  }

  /** The customers of a list with one more order in front. */
  lemma CustomerIdsPrepend(o: Order, orders: seq<Order>)
    ensures CustomerIds([o] + orders) == CustomerIds(orders) + {o.customerId}
  {
    var before := set x | x in orders :: x.customerId;
    var after := set x | x in [o] + orders :: x.customerId;
    assert after == before + {o.customerId};
  }

  /** The worked example: two orders of 100 and 50 by the same customer
      give a count of 2, revenue 150, average 75 and one customer. */
  lemma StatsExample()
    ensures
      var a := Order(Some(1), "2025-06-15T10:30:00", Some(100), 5, "UPI", "A");
      var b := Order(Some(2), "2025-06-15T11:00:00", Some(50), 5, "Cash", "B");
      ComputeStats([a, b]) == OrderStats(2, 150, 75.0, 1)
  {
    var a := Order(Some(1), "2025-06-15T10:30:00", Some(100), 5, "UPI", "A");
    var b := Order(Some(2), "2025-06-15T11:00:00", Some(50), 5, "Cash", "B");
    assert [a, b][..1] == [a];
    assert [a][..0] == [];
    assert CustomerIds([a, b]) == {5};
    assert Revenue([a]) == 100;
    assert Revenue([a, b]) == 150;
    assert Average(150, 2) == 75.0;
  }
}

=== FILE: text.dfy ===
/** The string operations the order screens lean on, written out because a
    Dafny `string` is a plain `seq<char>`:
    - `toLowerCase()`, restricted to ASCII letters;
    - `trim()`, with JavaScript's white-space and line-terminator set;
    - `includes()` (substring search);
    - `String(n)` / `${n}` for an integer, with a parser as its inverse;
    - `<` on strings (lexicographic by character). */
module Text {
  import opened Wrappers

  // ---------------------------------------------------------------- case

  predicate IsUpper(c: char) {
    'A' <= c <= 'Z'
  }

  /** ASCII lower-casing of one character; every other character is kept. */
  function LowerChar(c: char): (r: char)
    ensures !IsUpper(r)
    ensures !IsUpper(c) ==> r == c
    ensures IsUpper(c) ==> 'a' <= r <= 'z' && r as int - c as int == 'a' as int - 'A' as int
  {
    if IsUpper(c) then (c as int - 'A' as int + 'a' as int) as char else c
  }

  /** `s.toLowerCase()` for ASCII letters. */
  function Lower(s: string): (r: string)
    ensures |r| == |s|
    ensures forall i :: 0 <= i < |s| ==> r[i] == LowerChar(s[i])
  {
    if |s| == 0 then "" else [LowerChar(s[0])] + Lower(s[1..])
  }

  /** Lower-casing twice is lower-casing once. */
  lemma LowerIdempotent(s: string)
    ensures Lower(Lower(s)) == Lower(s)
  {
  }

  // ------------------------------------------------------------ trimming

  /** The characters `String.prototype.trim` removes: ECMAScript WhiteSpace
      (tab, vertical tab, form feed, space, no-break space, byte-order mark
      and the Unicode space separators) and LineTerminator. */
  predicate IsSpace(c: char) {
    || c == '\t' || c == '\U{000B}' || c == '\U{000C}' || c == ' '
    || c == '\U{00A0}' || c == '\U{FEFF}' || c == '\U{1680}'
    || ('\U{2000}' <= c <= '\U{200A}')
    || c == '\U{202F}' || c == '\U{205F}' || c == '\U{3000}'
    || c == '\n' || c == '\r' || c == '\U{2028}' || c == '\U{2029}'
  }

  /** How many white-space characters open `s`. */
  function LeadingSpaces(s: string): (n: nat)
    ensures n <= |s|
    ensures forall k :: 0 <= k < n ==> IsSpace(s[k])
    ensures n < |s| ==> !IsSpace(s[n])
  {
    if |s| > 0 && IsSpace(s[0]) then 1 + LeadingSpaces(s[1..]) else 0
  }

  /** How many white-space characters close `s`. */
  function TrailingSpaces(s: string): (n: nat)
    ensures n <= |s|
    ensures forall k :: |s| - n <= k < |s| ==> IsSpace(s[k])
    ensures n < |s| ==> !IsSpace(s[|s| - 1 - n])
  {
    if |s| > 0 && IsSpace(s[|s| - 1]) then 1 + TrailingSpaces(s[..|s| - 1]) else 0
  }

  /** `s.trim()`: the longest infix of `s` that neither starts nor ends with
      white space, obtained by dropping white space at both ends. */
  function Trim(s: string): (r: string)
    ensures LeadingSpaces(s) + |r| <= |s|
    ensures r == s[LeadingSpaces(s)..LeadingSpaces(s) + |r|]
    ensures forall k :: LeadingSpaces(s) + |r| <= k < |s| ==> IsSpace(s[k])
    ensures r != "" ==> !IsSpace(r[0]) && !IsSpace(r[|r| - 1])
    ensures r == "" <==> forall k :: 0 <= k < |s| ==> IsSpace(s[k])
  {
    var t := s[LeadingSpaces(s)..];
    t[..|t| - TrailingSpaces(t)]
  }

  // ---------------------------------------------------------- substrings

  predicate StartsWith(s: string, p: string) {
    |p| <= |s| && s[..|p|] == p
  }

  /** `p` occurs in `s` at position `i`. */
  predicate OccursAt(s: string, p: string, i: int) {
    0 <= i <= |s| - |p| && s[i..i + |p|] == p
  }

  lemma OccursShift(s: string, p: string)
    requires |s| > 0
    ensures (exists i :: OccursAt(s, p, i)) <==> StartsWith(s, p) || exists j :: OccursAt(s[1..], p, j)
  {
    if exists i :: OccursAt(s, p, i) {
      var i :| OccursAt(s, p, i);
      if i > 0 {
        assert s[1..][i - 1..i - 1 + |p|] == s[i..i + |p|];
        assert OccursAt(s[1..], p, i - 1);
      }
    }
    if exists j :: OccursAt(s[1..], p, j) {
      var j :| OccursAt(s[1..], p, j);
      assert s[1..][j..j + |p|] == s[j + 1..j + 1 + |p|];
      assert OccursAt(s, p, j + 1);
    }
    if StartsWith(s, p) {
      assert OccursAt(s, p, 0);
    }
  }

  /** `s.includes(p)`: `p` occurs somewhere in `s`. */
  function Includes(s: string, p: string): (r: bool)
    ensures r <==> exists i :: OccursAt(s, p, i)
    decreases |s|
  {
    if StartsWith(s, p) then
      assert OccursAt(s, p, 0);
      true
    else if |s| == 0 then
      false
    else
      OccursShift(s, p);
      Includes(s[1..], p)
  }

  // ------------------------------------------------------------- numbers

  predicate IsDigit(c: char) {
    '0' <= c <= '9'
  }

  predicate AllDigits(s: string) {
    forall i :: 0 <= i < |s| ==> IsDigit(s[i])
  }

  function DigitValue(c: char): nat
    requires IsDigit(c)
  {
    c as int - '0' as int
  }

  function DigitChar(d: nat): (c: char)
    requires d < 10
    ensures IsDigit(c) && DigitValue(c) == d
  {
    (d + '0' as int) as char
  }

  /** The number a string of decimal digits denotes. */
  function DigitsValue(s: string): nat
    requires AllDigits(s)
  {
    if |s| == 0 then 0 else 10 * DigitsValue(s[..|s| - 1]) + DigitValue(s[|s| - 1])
  }

  /** The decimal rendering of a natural number: digits only, no leading
      zero, denoting `n`. */
  function NatToDecimal(n: nat): (r: string)
    ensures |r| >= 1 && AllDigits(r)
    ensures DigitsValue(r) == n
    ensures r[0] == '0' ==> n == 0
    ensures r[0] == '0' ==> r == "0"
  {
    if n < 10 then
      [DigitChar(n)]
    else
      var prefix := NatToDecimal(n / 10);
      var r := prefix + [DigitChar(n % 10)];
      assert r[..|r| - 1] == prefix;
      r
  }

  /** `String(n)` for an integer: an optional minus sign, then the decimal
      digits of the magnitude. */
  function IntToString(n: int): (r: string)
    ensures |r| >= 1
    ensures n >= 0 ==> AllDigits(r)
    ensures n < 0 ==> r[0] == '-' && AllDigits(r[1..])
    ensures n >= 0 ==> r == NatToDecimal(n)
  {
    if n < 0 then "-" + NatToDecimal(-n) else NatToDecimal(n)
  }

  /** Reads back what `IntToString` writes: an optional `-` followed by one
      or more decimal digits. */
  function ParseInt(s: string): (r: Option<int>)
    ensures r.Some? ==> |s| >= 1
  {
    if |s| > 0 && s[0] == '-' then
      if |s| > 1 && AllDigits(s[1..]) then Some(0 - DigitsValue(s[1..]) as int) else None
    else if |s| > 0 && AllDigits(s) then Some(DigitsValue(s))
    else None
  }

  /** Parsing a rendered integer gives the integer back. */
  lemma IntToStringRoundTrip(n: int)
    ensures ParseInt(IntToString(n)) == Some(n)
  {
    var r := IntToString(n);
    if n < 0 {
      assert r[1..] == NatToDecimal(-n);
    } else {
      assert IsDigit(r[0]);
    }
  }

  /** Distinct integers are rendered as distinct strings. */
  lemma IntToStringInjective(m: int, n: int)
    requires IntToString(m) == IntToString(n)
    ensures m == n
  {
    IntToStringRoundTrip(m);
    IntToStringRoundTrip(n);
  }

  // --------------------------------------------------------------- order

  /** `a < b` on JavaScript strings: the first differing character decides,
      and a proper prefix comes first. */
  predicate LexLess(a: string, b: string)
    decreases |a|
  {
    if |b| == 0 then false
    else if |a| == 0 then true
    else if a[0] != b[0] then a[0] < b[0]
    else LexLess(a[1..], b[1..])
  }

  lemma {:induction false} LexLessAsymmetric(a: string, b: string)
    ensures !(LexLess(a, b) && LexLess(b, a))
    decreases |a|
  {
    if |a| > 0 && |b| > 0 && a[0] == b[0] {
      LexLessAsymmetric(a[1..], b[1..]);
    }
  }

  lemma {:induction false} LexLessTotal(a: string, b: string)
    ensures a == b || LexLess(a, b) || LexLess(b, a)
    decreases |a|
  {
    if |a| > 0 && |b| > 0 && a[0] == b[0] {
      LexLessTotal(a[1..], b[1..]);
      if a[1..] == b[1..] {
        assert a == [a[0]] + a[1..] && b == [b[0]] + b[1..];
      }
    }
  }

  lemma {:induction false} LexLessTransitive(a: string, b: string, c: string)
    requires LexLess(a, b) && LexLess(b, c)
    ensures LexLess(a, c)
    decreases |a|
  {
    if |a| > 0 && a[0] == b[0] && b[0] == c[0] {
      LexLessTransitive(a[1..], b[1..], c[1..]);
    }
  }
}

=== FILE: toast_service.dfy ===
/** The notification channel: every `show` takes the next value of a
    counter as the toast's id and publishes the toast at once. The channel
    keeps no history for late subscribers, so the model records what was
    published as an append-only log of emissions. */
module Toasts {
  import opened Wrappers

  datatype Kind = Success | Error | Info | Warning

  datatype Toast = Toast(id: nat, message: string, kind: Kind)

  /** `counter` is the service's private counter; `emitted` lists the toasts
      published so far, oldest first. */
  datatype ToastService = ToastService(counter: nat, emitted: seq<Toast>)

  /** A freshly constructed service: counter at zero, nothing published. */
  function NewService(): (r: ToastService)
    ensures Valid(r) && r.emitted == []
  {
    ToastService(0, [])
  }

  /** Ids run 1, 2, 3, ... in publication order and the counter equals the
      number of toasts published. */
  ghost predicate Valid(svc: ToastService) {
    && svc.counter == |svc.emitted|
    && forall i :: 0 <= i < |svc.emitted| ==> svc.emitted[i].id == i + 1
  }

  /** `show(message, type = 'info')`. */
  function Show(svc: ToastService, message: string, kind: Option<Kind>): (r: ToastService)
    ensures r.counter == svc.counter + 1
    ensures |r.emitted| == |svc.emitted| + 1 && r.emitted[..|svc.emitted|] == svc.emitted
    ensures r.emitted[|svc.emitted|].id == r.counter
    ensures r.emitted[|svc.emitted|].message == message
    ensures kind.None? ==> r.emitted[|svc.emitted|].kind == Info
    ensures kind.Some? ==> r.emitted[|svc.emitted|].kind == kind.value
  {
    var id := svc.counter + 1;
    ToastService(id, svc.emitted + [Toast(id, message, kind.GetOr(Info))])
  }

  /** The last toast published, if any. */
  function Latest(svc: ToastService): Option<Toast> {
    if |svc.emitted| == 0 then None else Some(svc.emitted[|svc.emitted| - 1])
  }

  /** `success(msg)`. */
  function ShowSuccess(svc: ToastService, message: string): (r: ToastService)
    ensures |r.emitted| == |svc.emitted| + 1 && r.emitted[..|svc.emitted|] == svc.emitted
    ensures Latest(r) == Some(Toast(svc.counter + 1, message, Success))
  {
    Show(svc, message, Some(Success))
  }

  /** `error(msg)`. */
  function ShowError(svc: ToastService, message: string): (r: ToastService)
    ensures |r.emitted| == |svc.emitted| + 1 && r.emitted[..|svc.emitted|] == svc.emitted
    ensures Latest(r) == Some(Toast(svc.counter + 1, message, Error))
  {
    Show(svc, message, Some(Error))
  }

  /** `info(msg)`. */
  function ShowInfo(svc: ToastService, message: string): (r: ToastService)
    ensures |r.emitted| == |svc.emitted| + 1 && r.emitted[..|svc.emitted|] == svc.emitted
    ensures Latest(r) == Some(Toast(svc.counter + 1, message, Info))
  {
    Show(svc, message, Some(Info))
  }

  /** `warning(msg)`. */
  function ShowWarning(svc: ToastService, message: string): (r: ToastService)
    ensures |r.emitted| == |svc.emitted| + 1 && r.emitted[..|svc.emitted|] == svc.emitted
    ensures Latest(r) == Some(Toast(svc.counter + 1, message, Warning))
  {
    Show(svc, message, Some(Warning))
  }

  /** Publishing keeps the ids consecutive from 1. */
  lemma ShowKeepsValid(svc: ToastService, message: string, kind: Option<Kind>)
    requires Valid(svc)
    ensures Valid(Show(svc, message, kind))
  {
  }

  /** In a valid service the ids strictly increase along the log. */
  lemma IdsStrictlyIncrease(svc: ToastService, i: int, j: int)
    requires Valid(svc)
    requires 0 <= i < j < |svc.emitted|
    ensures svc.emitted[i].id < svc.emitted[j].id
  {
  }

  /** One call of `show`: its message and optional type. */
  datatype Call = Call(message: string, kind: Option<Kind>)

  /** A sequence of `show` calls, applied in order. */
  function ShowAll(svc: ToastService, calls: seq<Call>): ToastService
    decreases |calls|
  {
    if |calls| == 0 then svc
    else ShowAll(Show(svc, calls[0].message, calls[0].kind), calls[1..])
  }

  /** Nothing is buffered or reordered: after any sequence of calls the log
      is the old log followed by exactly one toast per call, in call order,
      with ids continuing the counter. */
  lemma {:induction false} ShowAllAppends(svc: ToastService, calls: seq<Call>)
    ensures ShowAll(svc, calls).counter == svc.counter + |calls|
    ensures ShowAll(svc, calls).emitted == svc.emitted +
      seq(|calls|, i requires 0 <= i < |calls| =>
        Toast(svc.counter + i + 1, calls[i].message, calls[i].kind.GetOr(Info)))
    decreases |calls|
  {
    if |calls| > 0 {
      var next := Show(svc, calls[0].message, calls[0].kind);
      ShowAllAppends(next, calls[1..]);
    }
  }

  /** Starting from a valid service, any sequence of calls leaves it valid. */
  lemma ShowAllKeepsValid(svc: ToastService, calls: seq<Call>)
    requires Valid(svc)
    ensures Valid(ShowAll(svc, calls))
  {
    ShowAllAppends(svc, calls);
  }
}

=== FILE: wrappers.dfy ===
/** Optional values and success/failure results, used wherever the
    TypeScript code has an optional property (`id?`), a nullable field
    (`OrderDetails | null`) or an observable that either emits a value or
    errors. */
module Wrappers {

  /** `undefined` / `null` versus a present value. */
  datatype Option<+T> = None | Some(value: T) {

    /** The value, or `default` when absent (the `??` operator). */
    function GetOr(default: T): T {
      match this
      case Some(v) => v
      case None => default
    }
  }

  /** The outcome of an observable that completes with one value (`next`)
      or with an error whose message is carried as `error` (`error`). */
  datatype Result<+T, +E> = Ok(value: T) | Fail(error: E)
}
